=== FILE: README.md ===
# agrlink marketplace backend — a Dafny model of its decision rules

This project models the request handlers of a small Express/Mongoose
marketplace backend. Buyers and sellers sign up and sign in. Sellers list
products. Buyers place orders and pay through the PayPack mobile-money
provider. The model covers these parts:

- the **payment flow**:
  - the one-slot provider token cache;
  - payment initiation, which stamps a `TX-<now>` transaction id and saves the order before asking the provider;
  - manual verification, which marks an order `Paid` only when the provider status upper-cases to `SUCCESSFUL`;
  - the provider's notification webhook, which sets `Paid` or `Failed`;
- the **order record**:
  - its schema constraints and defaults;
  - its two unique indexes (`orderId`; `transactionId`, which is sparse);
  - order creation as a validation cascade followed by record construction;
  - the buyer and seller listings;
- the **accounts**:
  - sign-up and sign-in;
  - user lookup and deletion;
  - the user schema with its role enum and its out-of-enum default role;
- the **products**:
  - `addProduct`, with the check that a seller is present, the body validation and the image rule;
  - lookup, listing by seller and deletion;
  - the search-filter builder;
- the **request schemas** (sign-up, sign-in, product) as predicates;
- the **authentication middleware**:
  - bearer-token extraction;
  - error classification;
  - the role check;
- the **error classes**, their status codes, and the JSON error envelope;
- the **upload filter**: the MIME allow-list, the MIME-to-format table, and the size limit.

Every handler is a pure function from its input and the current collection
to a `Response` and the new collection. `Http.Response` is either
`Respond(status, body)` or `Next(err)`; `Next(err)` stands for `next(err)`,
which reaches the error envelope. The handlers of the payment flow also
return the new token slot and the list of requests sent to the provider.

**The store.** A Mongo collection is a sequence of records in natural
order. New records are appended, so the model takes natural order to be
insertion order (see "## Left out"):

- `findOne` / `findById` is `Collections.FirstIndex`;
- `find` is `Collections.Filter`;
- unique indexes are a stated invariant (`OrderModel.StoreInvariant`, `UserModel.StoreInvariant`) that every save checks, and every handler is proved to preserve.

**Inputs.** The following are parameters of the model:

- the token library's `verify` and `sign`;
- bcrypt's digest and `compare`;
- the validation library's e-mail and URI checks;
- the regular-expression matcher of the name filter;
- `Date.now()` and `crypto.randomBytes`;
- the provider's replies, and the `JWT_SECRET_KEY`, `NODE_ENV` and `CALLBACK_URL` settings.

**Numbers.** JSON numbers are integer hundredths: price 12.5 is `1250` and
quantity 2 is `200`. This makes `parseInt` truncation
(`OrderController.ParseInt`) and the integer checks of the schema
expressible exactly.

**Strings.** `toUpperCase` / `toLowerCase` are modelled character by
character for:

- ASCII and Latin-1, including the two Latin-1 letters whose upper case lies outside it (ÿ becomes Ÿ, µ becomes Greek capital mu);
- upper-casing into ASCII: long s, dotless i, sharp s (to "SS") and the ff/fi/fl/ffi/ffl/st ligatures (to two or three letters);
- lower-casing into ASCII or Latin-1: Ÿ to ÿ, the Kelvin sign to k and the Angstrom sign to å;
- dotted capital I, which lower-cases to i followed by a combining dot above, two characters of which only the first is ASCII.

`trim` removes JavaScript whitespace.

## Model

| member | source | states |
|---|---|---|
| PayPack.GetToken | src/controller/PayPackController.ts:25-38 | A truthy slot is returned with no provider call. Otherwise exactly one token request is made. A missing or empty token raises "Failed to retrieve PayPack token" and leaves the slot as it was. A thrown request propagates. A success fills the slot with the non-empty token. |
| PayPack.TokenCached | src/controller/PayPackController.ts:26-36 | Once a token is obtained, every later fetch returns it with no provider call, whatever the provider would answer. A failed fetch leaves an empty slot empty. |
| PayPack.Stamp | src/controller/PayPackController.ts:59-61 | The stamped order has transaction id `"TX-" + now` and is otherwise identical, so payment status is untouched. |
| PayPack.Collect | src/controller/PayPackController.ts:58-84 | If the token fetch fails, nothing is saved. If the save fails, nothing changes. Otherwise the stamped order is saved BEFORE the collection request. That request carries the order's total, the buyer's phone unmodified, the new id as `tx_ref`, the callback URL and the bearer token. A throwing request still leaves the order saved. Acceptance answers 200 with the new reference and the order id. |
| PayPack.BuyerPhone | src/controller/PayPackController.ts:46-52 | The buyer's phone is found iff some user has the order's buyer id, and it is that user's phone number. |
| PayPack.Initiate | src/controller/PayPackController.ts:41-86 | A missing orderId gives BadRequest and an unknown orderId gives NotFound "Order not found", both with no provider call. A missing buyer raises a TypeError and an empty phone gives BadRequest "Buyer phone number is missing", both leaving the orders unchanged. A found buyer with a non-empty phone goes on to Collect: token, stamp and save, collection request, 200. A 200 reply echoes `TX-<now>` and means the collection request was made. The collection is changed only if that request was made, and then only by the stamp. The store invariant is kept. |
| PayPack.MarkPaid | src/controller/PayPackController.ts:115-117 | The order becomes Paid and verified, with the provider reply as metadata. Its id and transaction id are kept. |
| PayPack.Verify | src/controller/PayPackController.ts:89-129 | A missing id gives BadRequest. An unknown id gives NotFound before any token fetch or provider query. Otherwise the token is fetched and the transaction queried. A missing reply or status gives 400 "Invalid payment data received". A status that is not `SUCCESSFUL` after upper-casing gives 200 "not successful yet" with the orders unchanged. `SUCCESSFUL` saves MarkPaid of the order. The store invariant is kept. |
| PayPack.VerifyChangesOnlyOnSuccess | src/controller/PayPackController.ts:110-127 | If verification changes the collection, the provider answered with a usable reply whose status upper-cases to `SUCCESSFUL`. The only change is then marking the order with that transaction id paid. |
| PayPack.Reference | src/controller/PayPackController.ts:137 | The reference is `tx_ref` when truthy, else `transactionId`. |
| PayPack.Notify | src/controller/PayPackController.ts:145-147 | The status becomes Paid iff the notified status upper-cases to `SUCCESSFUL`, else Failed. The order is marked verified and the whole body is stored as metadata. Ids are kept. |
| PayPack.Webhook | src/controller/PayPackController.ts:134-152 | A missing reference or status gives 400 "Invalid notification payload", and no order with that reference gives 404 "Order not found"; both leave the orders unchanged. Otherwise the matched order is saved with Notify applied, giving 200, or the save error with nothing changed. The store invariant is kept. |
| PayPack.SecondNotification | src/controller/PayPackController.ts:142-151 | After a processed notification, a second one with the same reference finds the same order. It is processed too, and the result is the original collection with only that order notified by the second body. |
| PayPack.WebhookIdempotent | src/controller/PayPackController.ts:134-152 | Delivering the same notification twice has the same response and collection as delivering it once. |
| PayPack.LateFailureOverwritesPaid | src/controller/PayPackController.ts:145-149 | There is no terminal-state guard: a failure notification after a success turns a Paid order into Failed. |
| PayPack.LowerCaseSucceeds | src/controller/PayPackController.ts:114 | The success test is case-insensitive: "successful" counts. |
| PayPack.LongAndSharpSSucceed | src/controller/PayPackController.ts:145 | Upper-casing also folds "ſucceßful" to `SUCCESSFUL`, so it counts as success. |
| OrderModel.Insert | src/model/OrderSchema.ts:129-216 | `Order.create` succeeds iff the record meets the schema and clashes with no stored orderId or present transactionId. It then appends the record. Failures carry no HTTP status, so they surface as 500. The store invariant is kept. |
| OrderModel.Save | src/model/OrderSchema.ts:129-216 | `order.save()` of a changed record succeeds iff the record meets the schema and clashes with no other record. It then replaces exactly that record, and the store invariant is kept. |
| OrderModel.SaveSameKeysSucceeds | src/model/OrderSchema.ts:129-134 | In a consistent store, re-saving a valid record whose unique keys are unchanged always succeeds. |
| OrderModel.AbsentTransactionIdsAllowed | src/model/OrderSchema.ts:198-202 | The transaction-id index is sparse: any number of orders may lack one. |
| OrderController.ParseInt | src/controller/OrderController.ts:47 | `parseInt` of a number truncates toward zero, for both signs. |
| OrderController.OrderIdUntrimmed | src/model/OrderSchema.ts:129-134 | The schema's `trim` leaves `"ORD-" + now` unchanged. |
| OrderController.BuildOrder | src/controller/OrderController.ts:46-71 | The record has orderId `"ORD-" + now`. Buyer and seller come from the token and the product. The line snapshots the product id and price. The total is price × parseInt(quantity). All creation defaults are set, with orderDate = now. The transaction id, drawn from eight random bytes, is `"TXN-"` followed by the bytes as lower-case hex: 20 characters that decode back to those bytes. The shipping address is the request's four fields, trimmed. deliveryDate is null iff none is supplied. |
| OrderController.Precheck | src/controller/OrderController.ts:22-44 | The checks run in order: "Buyer not authenticated", then "Missing required order fields" (before any lookup), then NotFound "Product with ID … not found". Success yields the index of a product with the requested id. |
| OrderController.Place | src/controller/OrderController.ts:52-73 | The reply is 201 with the order iff the insert succeeds, and the order is then appended. Otherwise the insert error is passed on and nothing changes. |
| OrderController.CreateOrder | src/controller/OrderController.ts:12-75 | Each failed precheck is forwarded with the collection unchanged. Any error leaves the collection unchanged. A 201 reply carries the order, which is appended. |
| OrderController.CreateOrderNeverStores | src/controller/OrderController.ts:52-71 | As written, no order is ever stored. The handler never sets the required `paymentChannel`, so every create that passes the prechecks ends in the validation error, which the client receives as status 500. |
| OrderController.FractionalQuantityInconsistent | src/controller/OrderController.ts:47-58 | As written, for quantity 2.5 at price 1.00 the record handed to `Order.create` has quantity 2.5 but total 2.00, so total ≠ price × quantity (it would be stored once a channel is supplied). |
| OrderController.CreateOrderFixed | src/controller/OrderController.ts:12-75 | The corrected handler also demands a payment channel and stores whole units. Errors come in the cascade order ("Buyer not authenticated", "Missing required order fields", NotFound "Product with ID … not found") and change nothing. A 201 reply carries an order that is appended, meets the schema, has total = price × quantity and the creation defaults, has the caller as buyer and the requested channel, and snapshots an existing product's seller and price. The store invariant is kept. |
| OrderController.CreateOrderFixedStores | src/controller/OrderController.ts:22-73 | The corrected handler does store orders: a request from an authenticated buyer with every field, method "PayPack", a supported channel, at least one whole unit, an existing product with a seller and a non-negative price, non-blank shipping fields and fresh generated ids is answered 201. |
| OrderController.PlaceWhole | src/controller/OrderController.ts:46-73 | Creating with whole-unit quantity replies 201 exactly when `Order.create` accepts the built record. It then appends a schema-valid order whose total equals price × stored quantity; otherwise nothing changes. |
| OrderController.PlaceWholeStores | src/controller/OrderController.ts:46-73 | The built record is accepted whenever the request supplies acceptable values and no stored order holds the generated order id or transaction id. |
| OrderController.BuildOrderValid | src/model/OrderSchema.ts:129-216 | With acceptable request values, a non-empty buyer and a product with a seller and a non-negative price, the record built with whole units meets the schema. |
| OrderController.BuildOrderConsistent | src/controller/OrderController.ts:47-60 | When the stored quantity is the truncated one, total = price × quantity holds. |
| OrderController.GetOrdersByBuyerId | src/controller/OrderController.ts:91-101 | Replies 200 with the orders whose buyer is the given id, each as often as it is stored, and no other. |
| OrderController.GetOrdersBySellerId | src/controller/OrderController.ts:104-114 | Replies 200 with the orders whose seller is the given id, each as often as it is stored, and no other. |
| OrderController.ListingsKeepOrder | src/controller/OrderController.ts:95-108 | Both listings keep the collection's order: the listing of two consecutive parts is the first part's listing followed by the second's. |
| OrderController.PlacedOrderListedLast | src/controller/OrderController.ts:52-108 | In the model's store, a placed order appears last in its buyer's and its seller's listing, after the orders they already had. |
| UserModel.WithDefaults | src/model/userModel.ts:24-29 | An absent role becomes "Customer". When a role is present, the fields are left as they are. |
| UserModel.Save | src/model/userModel.ts:4-31 | Saving succeeds iff username, email, password and phone are present and non-empty, the role after defaulting is in Buyer/Seller/Admin, and the id is new. The saved record holds exactly the given fields, address optional. A record that fails validation gives the validation error. Every failure has no status, so it is answered with 500. The store invariant is kept. |
| UserModel.DefaultRoleOutsideEnum | src/model/userModel.ts:26-27 | The default role "Customer" is not in the role enum. |
| UserModel.MissingRoleNeverSaves | src/model/userModel.ts:24-29 | A user saved without a role is always refused. |
| UserController.View | src/controller/userController.ts:61-71 | The sign-up echo carries id, username, email, role, phone and address, and no password. |
| UserController.SignUp | src/controller/userController.ts:22-72 | A schema failure gives BadRequest with the failing keys. An existing lower-cased e-mail gives "Email already exists.". Every error leaves the store unchanged. A 201 reply appends exactly one user with the lower-cased e-mail and the hash as password, and echoes it without the password. Valid input with a fresh e-mail, a non-empty hash and a fresh id always succeeds. The store invariant is kept. |
| UserController.MismatchCheckUnreachable | src/controller/userController.ts:38-55 | After validation, the password-mismatch check and the fallback role "user" (itself outside the enum) are unreachable. |
| UserController.SignIn | src/controller/userController.ts:75-117 | An invalid body gives BadRequest. Otherwise the submitted e-mail is looked up verbatim. |
| UserController.Authenticate | src/controller/userController.ts:85-115 | Sign-in succeeds iff some user has exactly this e-mail, the password matches that user's hash, and a secret is set. It then signs that user's id, e-mail and role. When the password matches but no secret is set, the plain Error "JWT_SECRET_KEY environment variable is not set." is raised, which has no status and is answered with 500. Any 401 is the single "Invalid email or password". |
| UserController.SignInFailuresIndistinguishable | src/controller/userController.ts:86-96 | An unknown e-mail and a wrong password give the identical response. |
| UserController.MixedCaseSignUpCannotSignIn | src/controller/userController.ts:42-85 | As written, a user who signed up with an e-mail that lower-casing changes cannot sign in with that same e-mail and password. The only exception is an earlier user holding that exact spelling. Sign-in then fails with "Invalid email or password". |
| UserController.AnnCannotSignIn | src/controller/userController.ts:42-85 | An instance: sign-up as "Ann@x.io" succeeds on an empty store, and signing in as "Ann@x.io" is then refused. |
| UserController.SignInCaseInsensitive | src/controller/userController.ts:75-117 | The corrected sign-in is the same handler with the looked-up e-mail lower-cased. |
| UserController.SignUpThenSignIn | src/controller/userController.ts:42-96 | With the corrected sign-in, whoever signs up can sign in with the same e-mail and password. |
| UserController.GetUserById | src/controller/userController.ts:133-143 | Replies 200 with a user of that id iff one exists, else NotFound "user not found". |
| UserController.GetUserProfile | src/controller/userController.ts:145-157 | A caller without an id gives BadRequest "User not authenticated". Otherwise the reply is 200 with the caller's own stored record iff a user with the token's id exists, and NotFound "user not found" if not. |
| UserController.SignedUpUserHasProfile | src/controller/userController.ts:42-157 | A user who has just signed up, presenting a token with the new id, gets their own new record from the profile endpoint. |
| UserController.RemovalKeepsInvariant | src/controller/userController.ts:191 | In a store with unique ids, deleting an id removes exactly the one record, keeps the others in order, and keeps the store invariant. |
| UserController.DropKeepsInvariant | src/controller/userController.ts:191 | Removing any one record from a consistent user store leaves it consistent: every record still valid and ids still distinct. |
| UserController.DeleteUser | src/controller/userController.ts:181-197 | An unknown id gives NotFound "User not found!" with nothing removed. Otherwise the reply is 200 and exactly the users with that id are removed (one, when ids are unique). The store invariant is kept. |
| Validation.SignUpViolations | src/utils/validation.ts:6-23 | The sign-up body is refused iff some rule fails: username 3–30, e-mail format, address, password ≥ 6, role in Seller/Buyer/Admin, confirmPassword = password, ten-digit phone, no unknown keys. A short password and a mismatch are each reported. |
| Validation.SignUpValidConsequences | src/utils/validation.ts:7-22 | An accepted body has matching passwords, a role from the user enum and a username of at most 30 characters. |
| Validation.SignInViolations | src/utils/validation.ts:26-29 | The sign-in body is refused iff the password is shorter than 6, the e-mail is missing or malformed, or there is an unknown key. |
| Validation.ProductViolations | src/utils/validation.ts:34-90 | The product body is refused iff one of these fails: name 3–100, description 10–1000, price > 0, category 3–50, stock an integer ≥ 0, location 3–200, images a URI if present, no unknown keys. A bad price and a bad stock are each reported. |
| Validation.SellerKeyRefused | src/utils/validation.ts:34-90 | A body that names a `seller` is refused, since the schema does not declare that key. |
| ProductController.Images | src/controller/Productontroller.ts:33-40 | The image list is empty iff no file (or no URL) was uploaded. Otherwise it is exactly one entry with the upload's URL and public id. |
| ProductController.AddProduct | src/controller/Productontroller.ts:11-60 | No seller gives NotFound "seller not found" before validation runs. An invalid body then gives BadRequest with the failing keys. Both leave the products unchanged. A 201 reply happens iff there is a seller and a valid body. It appends one product with the body's fields, the seller from the token and the image rule. |
| ProductController.SellerComesFromToken | src/controller/Productontroller.ts:14-51 | A body trying to set its own seller is refused with 400 and nothing is stored. |
| ProductController.GetProductById | src/controller/Productontroller.ts:74-88 | Replies NotFound "Product not found" iff no product has the id, else 200 with that product. |
| ProductController.GetBySellerId | src/controller/Productontroller.ts:92-106 | Replies 200 with the seller's products, each as often as it is stored, and no other, even when there are none. |
| ProductController.DeleteProduct | src/controller/Productontroller.ts:136-152 | An unknown id gives NotFound "Product not found!" with nothing removed. Otherwise the reply is 200 "Successfully deleted Product", and one product with that id is removed with the rest kept in order. |
| ProductController.DeleteRemovesExactly | src/controller/Productontroller.ts:140-146 | With unique ids, deletion keeps exactly the products whose id differs. |
| ProductController.BuildQuery | src/controller/Productontroller.ts:111-123 | The filter has a name key iff the name is truthy, a price key iff the price is truthy (non-zero), and a category key iff the category is truthy. Each key holds the submitted value. |
| ProductController.FilterProducts | src/controller/Productontroller.ts:108-133 | Replies 200 "product is filtered successfully" with the matching products, each as often as it is stored, and no other, and their count. |
| ProductController.EmptyFilterReturnsAll | src/controller/Productontroller.ts:111-125 | An empty body builds the empty filter and returns every product in order. |
| ProductController.ListingsKeepOrder | src/controller/Productontroller.ts:92-125 | The seller listing and the filter keep the collection's order: the result for two consecutive parts is the first part's followed by the second's. |
| ProductController.AddedProductListedLast | src/controller/Productontroller.ts:42-99 | In the model's store, a product just added appears last in its seller's listing, after the products the seller already had. |
| Auth.ExtractToken | src/middleware/authenticationToken.ts:21 | The token exists iff the header does. It is trimmed and no longer than the header. |
| Auth.ExtractTokenRoundTrip | src/middleware/authenticationToken.ts:21 | A header `Bearer <token>`, with any surrounding whitespace, yields exactly the token. |
| Auth.ExtractTokenRemovesInnerPrefix | src/middleware/authenticationToken.ts:21 | The first "Bearer " is removed wherever it occurs: "abcBearer xyz" yields "abcxyz". |
| Auth.AuthenticateToken | src/middleware/authenticationToken.ts:16-43 | Every rejection is a 401 UnauthorizedError. A falsy token gives "No token provided". A `TokenExpiredError` gives "Token expired". Any other failure, including a missing secret, gives "Invalid token". A decoded payload becomes the request user. |
| Auth.BearerTokenAuthenticates | src/middleware/authenticationToken.ts:21-39 | A header `Bearer <token>` with a configured secret authenticates as whatever the token decodes to, and is refused with "Token expired" when the library reports expiry. |
| Auth.Authorize | src/middleware/authenticationToken.ts:45-52 | The request is Forbidden iff there is no user, or the user's role (empty when absent) is not listed. |
| Auth.EmptyRolesForbid | src/middleware/authenticationToken.ts:45-52 | An empty role list forbids everyone. |
| Auth.MissingRoleIsEmptyRole | src/middleware/authenticationToken.ts:47 | A token without a role passes exactly when "" is listed. |
| Errors.NewCustomError | src/error/CustomError.ts:4-7 | The name is "CustomError" and the message is kept. The status defaults to 500 and otherwise is the argument. |
| Errors.Raise | src/error/BadREquestError.ts:3-4 | Each subclass carries its own class name and status: BadRequest 400, Unauthorized 401, Forbidden 403, NotFound 404. The message is the given one, or the class default. |
| ErrorHandler.HandleError | src/middleware/errorHandler.ts:13-22 | `success` is false and `status` equals the HTTP status. That status is the error's when truthy, else 500. `errorType` is the class name. The message is the error's, or "Internal Server Error" when empty. The stack appears iff NODE_ENV is "development". |
| ErrorHandler.TaxonomyEnvelope | src/middleware/errorHandler.ts:13-19 | Each error class reaches the client with its own status (400/401/403/404) and class name. |
| ErrorHandler.ZeroStatusBecomes500 | src/middleware/errorHandler.ts:13 | A CustomError with status 0 is sent as 500. |
| ErrorHandler.PlainErrorsAre500 | src/middleware/errorHandler.ts:13 | Errors without a status (validation, duplicate key, provider failures) are sent as 500. |
| Upload.FileFilter | src/cloudinary/multerConfig.ts:28-39 | A file is accepted iff its MIME type is image/jpeg, image/jpg or image/png. A rejection is signalled through `fileValidationError`, never through a callback error. |
| Upload.Format | src/cloudinary/multerConfig.ts:11-16 | The format is "jpg" exactly for jpeg/jpg, "png" exactly for png, and "" otherwise. |
| Upload.Params | src/cloudinary/multerConfig.ts:9-24 | Files go to folder "agrli-app" as resource type "image", with public id `"sample-" + now`. |
| Upload.FilterAgreesWithFormat | src/cloudinary/multerConfig.ts:11-39 | A file is accepted exactly when a non-empty format is requested for it. |
| Upload.Receive | src/cloudinary/multerConfig.ts:7-48 | A file is stored iff it is accepted and at most 5·1024·1024 bytes. It is then stored with exactly the storage parameters: folder "agrli-app", the format for its type, public id `sample-<now>` and resource type "image". A rejected file is skipped with the message "Only jpeg, jpg, and png images are allowed!". An oversized file aborts with the "File too large" error, which has no status. |
| Text.Trim | src/middleware/authenticationToken.ts:21 | The result has no leading or trailing JavaScript whitespace and is no longer than the input. |
| Text.TrimPadded | src/middleware/authenticationToken.ts:21 | Trimming a trimmed string padded with whitespace gives back that string. |
| Text.TrimEmptyIffBlank | src/model/OrderSchema.ts:105-126 | A trimmed field is empty exactly when the submitted string is all whitespace, so `required` after `trim` refuses exactly the blank values. |
| Text.TrimIdempotent | src/model/OrderSchema.ts:105-126 | Trimming twice is the same as trimming once. |
| Text.ReplaceFirst | src/middleware/authenticationToken.ts:21 | The first occurrence of the pattern is replaced. With no occurrence the string is unchanged. |
| Text.ToUpperIdempotent | src/controller/PayPackController.ts:114 | Upper-casing twice is the same as upper-casing once. |
| Text.HexRoundTrip | src/controller/OrderController.ts:50 | Hex-decoding the lower-case hex encoding of bytes gives the bytes back. |
| Text.DecimalRoundTrip | src/controller/PayPackController.ts:59 | The decimal rendering of a timestamp reads back as that timestamp. |
| Text.NatToDecimalInjective | src/controller/PayPackController.ts:59 | Distinct timestamps render to distinct ids. |
| Collections.FirstIndex | src/controller/PayPackController.ts:46-47 | `findOne` returns the first record that matches, or nothing iff none matches. |
| Collections.Filter | src/controller/OrderController.ts:95 | `find` returns a record iff it is stored and matches, and never more records than are stored. |
| Collections.FilterCounts | src/controller/OrderController.ts:95 | Each matching record keeps its multiplicity and each other record is dropped. |
| Collections.FilterConcat | src/controller/OrderController.ts:95 | Selection keeps the stored order: filtering two consecutive parts gives the first part's matches followed by the second's. |
| Collections.FilterAppend | src/controller/OrderController.ts:95 | A record appended to the collection is selected last, when it matches. |

## Left out

- `checkPaypackHealth` is imported by `src/route/paymentRoute.ts:2` but not defined, and that router is not mounted; there is nothing to model. The other routing tables and startup are wiring only.
- `getAllOrders`, `getAllProducts`, `getAllUser` and `updateUserProfile` return or overwrite whole collections with no decision rule, so they are not modelled.
- The provider token never expires: the slot is kept for the process lifetime, as in the code, so a token that goes stale is not modelled.
- Concurrency is not modelled: handlers are sequential. This leaves out races between verification and the webhook, and between two token fetches.
- Floating-point money is not modelled: amounts are integer hundredths. A price with more than two decimals, and a numeric string that the validation library would convert, are not modelled.
- JSON values that are not strings (numbers in string fields, objects, arrays) are not modelled: request fields are absent or strings, and numbers are absent or hundredths. `status.toUpperCase()` on a non-string throws in the code; the model assumes statuses are strings.
- The validation library's message templates are not modelled: an error message is the list of failing keys joined with ", ", not the library's wording.
- Case mapping covers ASCII, Latin-1 and the few letters listed above. Other scripts are not modelled, and are left unchanged.
- `populate`, Mongoose casting of malformed ids and dates, and `CastError` are not modelled. Ids are abstract strings that either match or do not.
- The product schema (`src/model/ProductModel.ts`) is not part of this model, so `Product.create` is taken to succeed once the request schema accepts the body.
- `src/middleware/async.ts` is not part of this model. It is taken to forward every thrown or rejected error to `next`, and so to the error envelope.
- Hashing, password comparison, token signing and verification, the e-mail and URI format checks, the name regex, the clock and the random source are parameters; their internals are external libraries.
- Cloudinary upload failures and the storage engine are not modelled.
- PayPack.Initiate: a missing buyer (deleted user) is modelled as the TypeError the code would raise. A buyer's phone is read from the user collection, standing in for `populate`.
- OrderController.PlacedOrderListedLast, OrderController.ListingsKeepOrder, ProductController.AddedProductListedLast, ProductController.ListingsKeepOrder and Collections.FilterAppend rest on one assumption of the model: natural order is insertion order, since `Insert` appends at the end. `Order.find` and `Product.find` have no sort, and the database does not promise that natural order is insertion order. These lemmas therefore describe the model's store; they are not a guarantee the code gives.
- OrderController.BuildOrder: one clock reading `now` feeds both `orderId` and `orderDate`. The code reads the clock twice, once for `ORD-${Date.now()}` and once for the schema default `Date.now`, so the two can differ by a few milliseconds; the model does not say they may differ.
- OrderController.BuildOrder: the schema's `trim` on `orderId` is not applied in the body. `OrderController.OrderIdUntrimmed` proves it has no effect on `"ORD-" + now`.

## Findings

| source | as written | input that shows it | evidently intended | confidence | as-written member | corrected member |
|---|---|---|---|---|---|---|
| src/controller/OrderController.ts:52-71 | `Order.create` is never given `paymentChannel`, which the schema requires (src/model/OrderSchema.ts:185-189). Every creation fails validation and reaches the client as 500. | any authenticated request with all required fields and an existing product | the request supplies a payment channel, which is checked with the other required fields and stored | high (not executed) | OrderController.CreateOrderNeverStores | OrderController.CreateOrderFixed |
| src/controller/userController.ts:85 | sign-in looks up the e-mail as submitted, while sign-up stores it lower-cased (lines 42, 51) | sign up as "Ann@x.io", then sign in as "Ann@x.io" with the same password: 401 | the sign-in e-mail is lower-cased before the lookup | high (not executed) | UserController.MixedCaseSignUpCannotSignIn | UserController.SignInCaseInsensitive |
| src/controller/OrderController.ts:47-58 | the total uses `parseInt(quantity)` but the raw quantity is stored | quantity 2.5 at price 1.00: the record handed to `Order.create` has quantity 2.5 but total 2.00 (it would be stored once a channel is supplied) | total = price × stored quantity, with a whole-unit quantity | medium (not executed) | OrderController.FractionalQuantityInconsistent | OrderController.PlaceWhole |

=== FILE: auth.dfy ===
/** The authentication middleware: bearer-token extraction, verification
    with its error classification, and the role check. Token verification
    itself is an input (`verify`), since the signature scheme is external. */
module Auth {
  import opened Wrappers
  import opened Errors
  import Text

  /** The decoded token payload attached as `req.user`. */
  datatype Claims = Claims(id: Option<string>, email: Option<string>, username: Option<string>, role: Option<string>)

  /** What the token library's `verify` does: return the payload, or throw an
      error with the given `name`. */
  datatype VerifyResult = Decoded(payload: Claims) | VerifyFailed(errorName: string)

  const BearerPrefix: string := "Bearer "

  /** `req.header('Authorization')?.replace('Bearer ', '').trim()`. */
  function ExtractToken(header: Option<string>): (t: Option<string>)
    ensures header.None? <==> t.None?
    ensures t.Some? ==> Text.Trimmed(t.value) && |t.value| <= |header.value|
  {
    match header
    case None => None
    case Some(h) => Some(Text.Trim(Text.ReplaceFirst(h, BearerPrefix, "")))
  }

  /** A well-formed header, `Bearer <token>` possibly surrounded by
      whitespace, yields exactly the token. */
  lemma ExtractTokenRoundTrip(u: string, token: string, v: string)
    requires Text.AllWhitespace(u) && Text.AllWhitespace(v) && Text.Trimmed(token)
    ensures ExtractToken(Some(u + BearerPrefix + token + v)) == Some(token)
  {
    var h := u + BearerPrefix + token + v;
    assert h == u + (BearerPrefix + (token + v));
    assert h[|u|..|u| + |BearerPrefix|] == BearerPrefix;
    assert Text.OccursAt(h, BearerPrefix, |u|);
    forall j | 0 <= j < |u|
      ensures !Text.OccursAt(h, BearerPrefix, j)
    {
      assert h[j] == u[j];
    }
    var i := Text.IndexOf(h, BearerPrefix);
    assert i == Some(|u|);
    assert Text.ReplaceFirst(h, BearerPrefix, "") == u + token + v;
    Text.TrimPadded(u, token, v);
  }

  /** The prefix is removed wherever it first occurs, not only at the start. */
  lemma ExtractTokenRemovesInnerPrefix()
    ensures ExtractToken(Some("abcBearer xyz")) == Some("abcxyz")
  {
    var h := "abcBearer xyz";
    InnerPrefixAt3();
    var r := Text.ReplaceFirst(h, BearerPrefix, "");
    assert |BearerPrefix| == 7;
    assert r == h[..3] + "" + h[10..];
    assert h[..3] == "abc" && h[10..] == "xyz";
    assert r == "abcxyz";
    Text.TrimPadded("", "abcxyz", "");
    assert "" + "abcxyz" + "" == "abcxyz";
  }

  lemma InnerPrefixAt3()
    ensures Text.IndexOf("abcBearer xyz", BearerPrefix) == Some(3)
  {
    var h := "abcBearer xyz";
    assert Text.OccursAt(h, BearerPrefix, 3);
    forall j | 0 <= j < 3
      ensures !Text.OccursAt(h, BearerPrefix, j)
    {
      assert h[j] != 'B';
      assert h[j..j + |BearerPrefix|][0] == h[j];
    }
  }

  datatype AuthOutcome = Authenticated(user: Claims) | Rejected(err: AppError)

  /** `authenticateToken`, with the `JWT_SECRET_KEY` setting and the
      library's `verify` as inputs. `Authenticated(c)` means `req.user := c`
      and `next()`; `Rejected(e)` means `next(e)`. */
  function AuthenticateToken(header: Option<string>, secret: Option<string>,
                             verify: (string, string) -> VerifyResult): (o: AuthOutcome)
    ensures o.Rejected? ==> o.err.className == "UnauthorizedError" && o.err.statusCode == Some(401)
    ensures !Text.Truthy(ExtractToken(header)) ==> o == Rejected(UnauthorizedError("No token provided"))
    ensures Text.Truthy(ExtractToken(header)) && !Text.Truthy(secret) ==>
      o == Rejected(UnauthorizedError("Invalid token"))
    ensures Text.Truthy(ExtractToken(header)) && Text.Truthy(secret) ==>
      var v := verify(ExtractToken(header).value, secret.value);
      && (v.Decoded? ==> o == Authenticated(v.payload))
      && (v.VerifyFailed? && v.errorName == "TokenExpiredError" ==> o == Rejected(UnauthorizedError("Token expired")))
      && (v.VerifyFailed? && v.errorName != "TokenExpiredError" ==> o == Rejected(UnauthorizedError("Invalid token")))
  {
    var token := ExtractToken(header);
    if !Text.Truthy(token) then Rejected(UnauthorizedError("No token provided"))
    else
      // A missing secret throws a plain Error inside the try block, so it is
      // classified like any other verification failure.
      var failure :=
        if !Text.Truthy(secret) then VerifyFailed("Error")
        else verify(token.value, secret.value);
      match failure
      case Decoded(payload) => Authenticated(payload)
      case VerifyFailed(name) =>
        if name == "TokenExpiredError" then Rejected(UnauthorizedError("Token expired"))
        else Rejected(UnauthorizedError("Invalid token"))
  }

  /** A request carrying `Bearer <token>` with a configured secret is
      authenticated as whatever the token decodes to, and refused with
      "Token expired" when the library reports expiry. */
  lemma BearerTokenAuthenticates(token: string, secret: string, verify: (string, string) -> VerifyResult)
    requires Text.Trimmed(token) && token != "" && secret != ""
    ensures verify(token, secret).Decoded? ==>
      AuthenticateToken(Some(BearerPrefix + token), Some(secret), verify) == Authenticated(verify(token, secret).payload)
    ensures verify(token, secret) == VerifyFailed("TokenExpiredError") ==>
      AuthenticateToken(Some(BearerPrefix + token), Some(secret), verify) == Rejected(UnauthorizedError("Token expired"))
  {
    BearerHeaderYieldsToken(token);
  }

  /** The token is read back from a `Bearer <token>` header unchanged. */
  lemma BearerHeaderYieldsToken(token: string)
    requires Text.Trimmed(token) && token != ""
    ensures ExtractToken(Some(BearerPrefix + token)) == Some(token)
  {
    var e: string := [];
    var h := BearerPrefix + token;
    assert h == e + BearerPrefix + token + e;
    ExtractTokenRoundTrip(e, token, e);
  }

  /** `authorize(...roles)`: `None` means `next()`, `Some(e)` means `next(e)`. */
  function Authorize(roles: seq<string>, user: Option<Claims>): (r: Option<AppError>)
    ensures r.None? <==> user.Some? && user.value.role.GetOr("") in roles
    ensures r.Some? ==> r.value == ForbiddenError("You do not have permission to perform this action")
  {
    if user.None? || user.value.role.GetOr("") !in roles then
      Some(ForbiddenError("You do not have permission to perform this action"))
    else None
  }

  /** An empty role list forbids everyone. */
  lemma EmptyRolesForbid(user: Option<Claims>)
    ensures Authorize([], user).Some?
  {
  }

  /** A user whose token carries no role passes exactly the checks that list
      the empty role name. */
  lemma MissingRoleIsEmptyRole(roles: seq<string>, c: Claims)
    requires c.role.None?
    ensures Authorize(roles, Some(c)).None? <==> "" in roles
  {
  }
}

=== FILE: collections.dfy ===
/** A document collection is modelled as a sequence of records in the
    database's natural order. `findOne` is the first match, `find` the
    order-preserving selection of all matches, and a delete keeps the rest. */
module Collections {
  import opened Wrappers

  /** `Model.findOne(query)`: the position of the first record matching `p`. */
  function FirstIndex<T>(s: seq<T>, p: T -> bool): (r: Option<nat>)
    ensures r.Some? ==> r.value < |s| && p(s[r.value])
    ensures r.Some? ==> forall j :: 0 <= j < r.value ==> !p(s[j])
    ensures r.None? <==> forall j :: 0 <= j < |s| ==> !p(s[j])
  {
    if s == [] then None
    else if p(s[0]) then Some(0)
    else
      match FirstIndex(s[1..], p)
      case None => None
      case Some(k) => Some(k + 1)
  }

  /** `Model.find(query)`: exactly the matching records, each as often as it
      occurs (`FilterCounts`), in their original order (`FilterConcat`). */
  function Filter<T(!new)>(s: seq<T>, p: T -> bool): (r: seq<T>)
    ensures |r| <= |s|
    ensures forall x :: x in r <==> x in s && p(x)
  {
    if s == [] then []
    else
      var rest := Filter(s[1..], p);
      assert s == [s[0]] + s[1..];
      if p(s[0]) then [s[0]] + rest else rest
  }

  /** `Filter` keeps every matching record as many times as it occurs and
      drops every other record. */
  lemma {:induction false} FilterCounts<T(!new)>(s: seq<T>, p: T -> bool)
    ensures forall x :: multiset(Filter(s, p))[x] == if p(x) then multiset(s)[x] else 0
  {
    if s != [] {
      FilterCounts(s[1..], p);
      assert s == [s[0]] + s[1..];
      assert multiset(s) == multiset([s[0]]) + multiset(s[1..]);
    }
  }

  /** Selection distributes over concatenation: the matches of a prefix come
      before those of the rest, so `Filter` keeps the records' relative order. */
  lemma {:induction false} FilterConcat<T(!new)>(s: seq<T>, t: seq<T>, p: T -> bool)
    ensures Filter(s + t, p) == Filter(s, p) + Filter(t, p)
    decreases |s|
  {
    if s == [] {
      assert s + t == t;
    } else {
      assert (s + t)[0] == s[0];
      assert (s + t)[1..] == s[1..] + t;
      FilterConcat(s[1..], t, p);
    }
  }

  /** A record appended to the collection is found last, when it matches. */
  lemma FilterAppend<T(!new)>(s: seq<T>, x: T, p: T -> bool)
    ensures Filter(s + [x], p) == Filter(s, p) + (if p(x) then [x] else [])
  {
    FilterConcat(s, [x], p);
    assert [x][1..] == [];
  }

  /** When every record matches, `Filter` keeps the whole collection. */
  lemma {:induction false} FilterAll<T(!new)>(s: seq<T>, p: T -> bool)
    requires forall i :: 0 <= i < |s| ==> p(s[i])
    ensures Filter(s, p) == s
  {
    if s != [] {
      FilterAll(s[1..], p);
      assert s == [s[0]] + s[1..];
    }
  }

  /** `Model.findByIdAndDelete` over a collection whose ids are unique:
      removing the one record at position `i`. */
  lemma {:induction false} FilterRemovesOne<T(!new)>(s: seq<T>, p: T -> bool, i: nat)
    requires i < |s| && !p(s[i])
    requires forall j :: 0 <= j < |s| && j != i ==> p(s[j])
    ensures Filter(s, p) == s[..i] + s[i + 1..]
    ensures |Filter(s, p)| == |s| - 1
  {
    var t := s[1..];
    if i == 0 {
      FilterAll(t, p);
      assert s[i + 1..] == t;
    } else {
      FilterRemovesOne(t, p, i - 1);
      var rest := Filter(t, p);
      assert rest == t[..i - 1] + t[i..];
      assert Filter(s, p) == [s[0]] + rest;
      assert t[..i - 1] == s[1..i];
      assert t[i..] == s[i + 1..];
      assert [s[0]] + s[1..i] == s[..i];
    }
  }

  /** Replacing the first match by another matching record leaves it the
      first match. */
  lemma FirstIndexAfterUpdate<T>(s: seq<T>, p: T -> bool, i: nat, x: T)
    requires FirstIndex(s, p) == Some(i) && p(x)
    ensures FirstIndex(s[i := x], p) == Some(i)
  {
    assert s[i := x][i] == x;
  }
}

=== FILE: errorhandler.dfy ===
/** The final error middleware: every error forwarded with `next(err)` or
    thrown inside a wrapped handler becomes one JSON envelope. */
module ErrorHandler {
  import opened Wrappers
  import opened Errors

  /** The HTTP status sent together with the JSON body
      `{ success, errorType, status, message, stack }`. */
  datatype ErrorResponse = ErrorResponse(
    httpStatus: int,
    success: bool,
    errorType: string,
    status: int,
    message: string,
    stack: Option<string>)

  /** `err.statusCode || 500`: a missing or zero status becomes 500. */
  predicate HasTruthyStatus(err: AppError) {
    err.statusCode.Some? && err.statusCode.value != 0
  }

  /** `errorHandler(err, ...)`, with the error's stack trace and the
      `NODE_ENV` setting as inputs. */
  function HandleError(err: AppError, stack: string, nodeEnv: Option<string>): (r: ErrorResponse)
    ensures !r.success && r.status == r.httpStatus
    ensures r.errorType == err.className
    ensures HasTruthyStatus(err) ==> r.httpStatus == err.statusCode.value
    ensures !HasTruthyStatus(err) ==> r.httpStatus == 500
    ensures err.message != "" ==> r.message == err.message
    ensures err.message == "" ==> r.message == "Internal Server Error"
    ensures r.stack.Some? <==> nodeEnv == Some("development")
    ensures r.stack.Some? ==> r.stack.value == stack
  {
    var status := if HasTruthyStatus(err) then err.statusCode.value else 500;
    ErrorResponse(
      status,
      false,
      err.className,
      status,
      if err.message != "" then err.message else "Internal Server Error",
      if nodeEnv == Some("development") then Some(stack) else None)
  }

  /** The status each class of the taxonomy is meant to produce, written out
      independently of the classes themselves. */
  function ExpectedStatus(c: ErrorClass): int {
    if c == BadRequest then 400
    else if c == Unauthorized then 401
    else if c == Forbidden then 403
    else 404
  }

  /** Every error of the taxonomy is answered with its class's status and its
      class name, whatever its message. */
  lemma TaxonomyEnvelope(c: ErrorClass, message: Option<string>, stack: string, nodeEnv: Option<string>)
    ensures HandleError(Raise(c, message), stack, nodeEnv).status == ExpectedStatus(c)
    ensures HandleError(Raise(c, message), stack, nodeEnv).errorType == ClassName(c)
  {
  }

  /** A `CustomError` constructed with status 0 is still answered with 500,
      since 0 is falsy. */
  lemma ZeroStatusBecomes500(message: string, stack: string, nodeEnv: Option<string>)
    ensures HandleError(NewCustomError(message, Some(0)), stack, nodeEnv).status == 500
  {
  }

  /** Errors outside the taxonomy are always answered with 500. */
  lemma PlainErrorsAre500(className: string, message: string, stack: string, nodeEnv: Option<string>)
    ensures HandleError(PlainError(className, message), stack, nodeEnv).status == 500
  {
  }
}

=== FILE: errors.dfy ===
/** The error taxonomy: `CustomError` and its four subclasses, each a fixed
    HTTP status, plus the plain errors (`Error`, `TypeError`, database and
    HTTP-client errors) that carry no `statusCode` at all. */
module Errors {
  import opened Wrappers

  /** A thrown or forwarded error: its constructor name (also its `name`), its
      `message`, and its `statusCode` property when it has one. */
  datatype AppError = AppError(className: string, message: string, statusCode: Option<int>)

  /** The subclasses of `CustomError`. */
  datatype ErrorClass = BadRequest | Unauthorized | Forbidden | NotFound

  function ClassName(c: ErrorClass): string {
    match c
    case BadRequest => "BadRequestError"
    case Unauthorized => "UnauthorizedError"
    case Forbidden => "ForbiddenError"
    case NotFound => "NotFoundError"
  }

  /** The status each subclass passes to `super`. */
  function ClassStatus(c: ErrorClass): int {
    match c
    case BadRequest => 400
    case Unauthorized => 401
    case Forbidden => 403
    case NotFound => 404
  }

  /** The message each subclass uses when constructed without one. */
  function DefaultMessage(c: ErrorClass): string {
    match c
    case BadRequest => "Resource not found"
    case Unauthorized => "Unauthorized access"
    case Forbidden => "ForbiddenError"
    case NotFound => "Not found error"
  }

  /** `new CustomError(message, statusCode?)`: the status defaults to 500 only
      when the argument is omitted. */
  function NewCustomError(message: string, statusCode: Option<int>): (e: AppError)
    ensures e.className == "CustomError" && e.message == message
    ensures statusCode.None? ==> e.statusCode == Some(500)
    ensures statusCode.Some? ==> e.statusCode == statusCode
  {
    AppError("CustomError", message, Some(statusCode.GetOr(500)))
  }

  /** `new XError(message?)` for one of the four subclasses. */
  function Raise(c: ErrorClass, message: Option<string>): (e: AppError)
    ensures e.className == ClassName(c) && e.statusCode.Some?
    ensures c == BadRequest ==> e.statusCode == Some(400)
    ensures c == Unauthorized ==> e.statusCode == Some(401)
    ensures c == Forbidden ==> e.statusCode == Some(403)
    ensures c == NotFound ==> e.statusCode == Some(404)
    ensures message.Some? ==> e.message == message.value
    ensures message.None? ==> e.message == DefaultMessage(c)
  {
    AppError(ClassName(c), message.GetOr(DefaultMessage(c)), Some(ClassStatus(c)))
  }

  function BadRequestError(message: string): AppError {
    Raise(BadRequest, Some(message))
  }

  function UnauthorizedError(message: string): AppError {
    Raise(Unauthorized, Some(message))
  }

  function ForbiddenError(message: string): AppError {
    Raise(Forbidden, Some(message))
  }

  function NotFoundError(message: string): AppError {
    Raise(NotFound, Some(message))
  }

  /** An error outside the taxonomy (`new Error(...)`, a `TypeError`, a
      database or HTTP-client error): no `statusCode`. */
  function PlainError(className: string, message: string): AppError {
    AppError(className, message, None)
  }
}

=== FILE: http.dfy ===
/** What a request handler does with a request: answer directly with a
    status and a JSON body, or pass an error on to the error middleware. */
module Http {
  import opened Wrappers
  import opened Errors
  import opened ErrorHandler

  datatype Response<B> =
    | Respond(status: int, body: B)   // res.status(status).json(body)
    | Next(err: AppError)             // next(err), or an error thrown inside the handler

  /** The HTTP status the client finally receives. */
  function SentStatus<B>(r: Response<B>): int {
    match r
    case Respond(status, _) => status
    case Next(err) => HandleError(err, "", None).httpStatus
  }
}

=== FILE: ordercontroller.dfy ===
/** The order handlers: `createOrder`'s validation cascade and record
    construction, and the per-buyer and per-seller listings. `Date.now()` and
    the eight random bytes of the transaction id are inputs. */
module OrderController {
  import opened Wrappers
  import opened Errors
  import opened Http
  import opened OrderModel
  import opened ProductModel
  import Auth
  import Collections
  import Text

  datatype AddressInput = AddressInput(
    fullName: Option<string>,
    phoneNumber: Option<string>,
    streetAddress: Option<string>,
    city: Option<string>)

  /** The route parameter and the body of an order request; `quantity` is a
      JSON number in hundredths. */
  datatype OrderRequest = OrderRequest(
    productId: Option<string>,
    quantity: Option<int>,
    shippingAddress: Option<AddressInput>,
    paymentMethod: Option<string>,
    paymentChannel: Option<string>,
    deliveryDate: Option<string>)

  datatype OrderBody =
    | Placed(order: Order)          // 201 { success: true, order }
    | Listed(orders: seq<Order>)    // 200 { success: true, orders }

  datatype Handled = Handled(response: Response<OrderBody>, orders: seq<Order>)

  /** `parseInt` of a number given in hundredths: its integer part, truncated
      towards zero. */
  function ParseInt(hundredths: int): (n: int)
    ensures hundredths >= 0 ==> 0 <= n * 100 <= hundredths < n * 100 + 100
    ensures hundredths < 0 ==> n * 100 - 100 < hundredths <= n * 100 <= 0
  {
    if hundredths >= 0 then hundredths / 100 else -((-hundredths) / 100)
  }

  /** `!x` for a number: zero (or absence) is falsy. */
  predicate NumberTruthy(v: Option<int>) {
    v.Some? && v.value != 0
  }

  /** The authenticated buyer's id, when truthy. */
  predicate HasBuyer(user: Option<Auth.Claims>) {
    user.Some? && Text.Truthy(user.value.id)
  }

  /** Every field the handler insists on is present and truthy. */
  predicate RequiredFieldsPresent(req: OrderRequest) {
    && Text.Truthy(req.productId)
    && NumberTruthy(req.quantity)
    && req.shippingAddress.Some?
    && Text.Truthy(req.shippingAddress.value.fullName)
    && Text.Truthy(req.shippingAddress.value.phoneNumber)
    && Text.Truthy(req.shippingAddress.value.streetAddress)
    && Text.Truthy(req.shippingAddress.value.city)
    && Text.Truthy(req.paymentMethod)
  }

  function FindProduct(products: seq<Product>, id: string): Option<nat> {
    Collections.FirstIndex(products, (p: Product) => p.id == id)
  }

  /** The shipping sub-document, with the schema's `trim` setters applied. */
  function Shipping(a: AddressInput): ShippingAddress
    requires a.fullName.Some? && a.phoneNumber.Some? && a.streetAddress.Some? && a.city.Some?
  {
    ShippingAddress(Text.Trim(a.fullName.value), Text.Trim(a.phoneNumber.value),
                    Text.Trim(a.streetAddress.value), Text.Trim(a.city.value))
  }

  /** The total agrees with the unit price and the stored quantity. */
  predicate TotalConsistent(o: Order) {
    o.totalAmount * 100 == o.product.price * o.product.quantity
  }

  /** `createOrder` draws eight random bytes for the transaction id. */
  const TransactionRandomBytes := 8

  /** `tx` is "TXN-" followed by the lower-case hex spelling of `random`,
      which can be read back from it. */
  predicate EncodesRandom(tx: string, random: seq<Text.byte>) {
    && |tx| == 4 + 2 * |random| && tx[..4] == "TXN-"
    && (forall i :: 4 <= i < |tx| ==> Text.IsLowerHex(tx[i]))
    && Text.HexDecode(tx[4..]) == random
  }

  /** The generated order id has no surrounding whitespace, so the schema's
      `trim` leaves it alone. */
  lemma OrderIdUntrimmed(now: nat)
    ensures Text.Trim("ORD-" + Text.NatToDecimal(now)) == "ORD-" + Text.NatToDecimal(now)
  {
    var id := "ORD-" + Text.NatToDecimal(now);
    assert id[0] == 'O';
    assert id[|id| - 1] == Text.NatToDecimal(now)[|Text.NatToDecimal(now)| - 1];
    assert id == "" + id + "";
    Text.TrimPadded("", id, "");
  }

  /** The document `createOrder` hands to `Order.create`, defaults applied.
      The schema trims `orderId`, which `OrderIdUntrimmed` shows to be the
      identity on generated ids, and the shipping fields.
      `storedQuantity` is what lands in `product.quantity` and `channel` is the
      payment channel, if any. */
  function BuildOrder(buyer: string, req: OrderRequest, product: Product, now: nat, random: seq<Text.byte>,
                      storedQuantity: int, channel: Option<string>): (o: Order)
    requires RequiredFieldsPresent(req) && |random| == TransactionRandomBytes
    ensures o.orderId == "ORD-" + Text.NatToDecimal(now)
    ensures o.buyer == buyer && o.seller == product.seller
    ensures o.product == ProductLine(req.productId.value, storedQuantity, product.price)
    ensures o.totalAmount == o.product.price * ParseInt(req.quantity.value)
    ensures HasCreationDefaults(o) && o.orderDate == now
    ensures o.transactionId.Some? && EncodesRandom(o.transactionId.value, random)
    ensures |o.transactionId.value| == 20
    ensures o.shippingAddress == Shipping(req.shippingAddress.value)
    ensures o.deliveryDate.None? <==> !Text.Truthy(req.deliveryDate)
    ensures o.deliveryDate.Some? ==> o.deliveryDate == req.deliveryDate
    ensures o.paymentMethod == req.paymentMethod.value && o.paymentChannel == channel
  {
    var hex := Text.HexEncode(random);
    var tx := "TXN-" + hex;
    assert tx[4..] == hex;
    Text.HexRoundTrip(random);
    Order(
      "ORD-" + Text.NatToDecimal(now),
      buyer,
      product.seller,
      ProductLine(req.productId.value, storedQuantity, product.price),
      product.price * ParseInt(req.quantity.value),
      OrderPending,
      Shipping(req.shippingAddress.value),
      PaymentPending,
      req.paymentMethod.value,
      channel,
      false,
      map[],
      Some(tx),
      None,
      DefaultCurrency,
      now,
      if Text.Truthy(req.deliveryDate) then req.deliveryDate else None)
  }

  /** The cascade shared by both versions of `createOrder`: the checks, in
      source order, that precede the insert. */
  function Precheck(user: Option<Auth.Claims>, req: OrderRequest, products: seq<Product>): (r: Result<nat, AppError>)
    ensures !HasBuyer(user) ==> r == Failure(BadRequestError("Buyer not authenticated"))
    ensures HasBuyer(user) && !RequiredFieldsPresent(req) ==> r == Failure(BadRequestError("Missing required order fields"))
    ensures HasBuyer(user) && RequiredFieldsPresent(req) && FindProduct(products, req.productId.value).None? ==>
      r == Failure(NotFoundError("Product with ID " + req.productId.value + " not found"))
    ensures r.Success? ==>
      (HasBuyer(user) && RequiredFieldsPresent(req) && r.value < |products| && products[r.value].id == req.productId.value)
  {
    if !HasBuyer(user) then Failure(BadRequestError("Buyer not authenticated"))
    else if !RequiredFieldsPresent(req) then Failure(BadRequestError("Missing required order fields"))
    else
      match FindProduct(products, req.productId.value)
      case None => Failure(NotFoundError("Product with ID " + req.productId.value + " not found"))
      case Some(k) => Success(k)
  }

  /** `Order.create(o)` followed by the 201 reply, or the creation error
      passed on. */
  function Place(orders: seq<Order>, o: Order): (h: Handled)
    ensures h.response.Respond? <==> Insert(orders, o).Success?
    ensures h.response.Respond? ==> h.response == Respond(201, Placed(o)) && h.orders == orders + [o]
    ensures h.response.Next? ==> h.response.err == Insert(orders, o).error && h.orders == orders
    ensures StoreInvariant(orders) ==> StoreInvariant(h.orders)
  {
    match Insert(orders, o)
    case Failure(e) => Handled(Next(e), orders)
    case Success(orders') => Handled(Respond(201, Placed(o)), orders')
  }

  /** `createOrder` as written: the stored quantity is the raw one while the
      total uses its integer part, and no payment channel is supplied. */
  function CreateOrder(user: Option<Auth.Claims>, req: OrderRequest, products: seq<Product>, orders: seq<Order>,
                       now: nat, random: seq<Text.byte>): (h: Handled)
    requires |random| == TransactionRandomBytes
    ensures Precheck(user, req, products).Failure? ==>
      h == Handled(Next(Precheck(user, req, products).error), orders)
    ensures h.response.Next? ==> h.orders == orders
    ensures h.response.Respond? ==>
      (h.response.status == 201 && h.response.body.Placed? && h.orders == orders + [h.response.body.order])
  {
    match Precheck(user, req, products)
    case Failure(e) => Handled(Next(e), orders)
    case Success(k) =>
      Place(orders, BuildOrder(user.value.id.value, req, products[k], now, random, req.quantity.value, None))
  }

  /** As written, no order is ever stored: the schema requires a payment
      channel and the handler never supplies one, so every request that passes
      the checks ends in a validation error answered with 500. */
  lemma CreateOrderNeverStores(user: Option<Auth.Claims>, req: OrderRequest, products: seq<Product>,
                               orders: seq<Order>, now: nat, random: seq<Text.byte>)
    requires |random| == TransactionRandomBytes
    ensures CreateOrder(user, req, products, orders, now, random).response.Next?
    ensures CreateOrder(user, req, products, orders, now, random).orders == orders
    ensures Precheck(user, req, products).Success? ==>
      CreateOrder(user, req, products, orders, now, random).response == Next(ValidationFailed)
    ensures Precheck(user, req, products).Success? ==>
      SentStatus(CreateOrder(user, req, products, orders, now, random).response) == 500
  {
    var pre := Precheck(user, req, products);
    if pre.Success? {
      var o := BuildOrder(user.value.id.value, req, products[pre.value], now, random, req.quantity.value, None);
      assert !ValidOrder(o);
      assert Insert(orders, o) == Failure(ValidationFailed);
    }
  }

  /** As written, a fractional quantity is stored as given while the total is
      computed from its integer part: 2.5 units at 1.00 cost 2.00. */
  lemma FractionalQuantityInconsistent(buyer: string, req: OrderRequest, product: Product, now: nat, random: seq<Text.byte>)
    requires RequiredFieldsPresent(req) && req.quantity == Some(250) && product.price == 100
    requires |random| == TransactionRandomBytes
    ensures
      var o := BuildOrder(buyer, req, product, now, random, req.quantity.value, None);
      o.totalAmount == 200 && o.product.quantity == 250 && !TotalConsistent(o)
  {
    assert ParseInt(250) == 2;
    var o := BuildOrder(buyer, req, product, now, random, req.quantity.value, None);
    assert o.totalAmount == 100 * 2;
    assert o.product.price == 100 && o.product.quantity == 250;
  }

  /** `createOrder` with the two defects removed: the payment channel is
      required like the other fields and stored, and the quantity stored is the
      integer quantity the total is computed from. */
  function CreateOrderFixed(user: Option<Auth.Claims>, req: OrderRequest, products: seq<Product>, orders: seq<Order>,
                            now: nat, random: seq<Text.byte>): (h: Handled)
    requires |random| == TransactionRandomBytes
    ensures !HasBuyer(user) ==> h == Handled(Next(BadRequestError("Buyer not authenticated")), orders)
    ensures HasBuyer(user) && !(RequiredFieldsPresent(req) && Text.Truthy(req.paymentChannel)) ==>
      h == Handled(Next(BadRequestError("Missing required order fields")), orders)
    ensures HasBuyer(user) && RequiredFieldsPresent(req) && Text.Truthy(req.paymentChannel)
            && FindProduct(products, req.productId.value).None? ==>
      h == Handled(Next(NotFoundError("Product with ID " + req.productId.value + " not found")), orders)
    ensures h.response.Next? ==> h.orders == orders
    ensures h.response.Respond? ==> h.response.status == 201 && h.response.body.Placed?
    ensures h.response.Respond? && h.response.body.Placed? ==>
      var o := h.response.body.order;
      && h.orders == orders + [o]
      && ValidOrder(o) && TotalConsistent(o) && HasCreationDefaults(o)
      && o.buyer == user.value.id.value && o.paymentChannel == req.paymentChannel
      && (exists k :: 0 <= k < |products| && products[k].id == req.productId.value
                      && o.seller == products[k].seller && o.product.price == products[k].price)
    ensures StoreInvariant(orders) ==> StoreInvariant(h.orders)
  {
    if !HasBuyer(user) then Handled(Next(BadRequestError("Buyer not authenticated")), orders)
    else if !(RequiredFieldsPresent(req) && Text.Truthy(req.paymentChannel)) then
      Handled(Next(BadRequestError("Missing required order fields")), orders)
    else
      match Precheck(user, req, products)
      case Failure(e) => Handled(Next(e), orders)
      case Success(k) => PlaceWhole(user.value.id.value, req, products[k], orders, now, random)
  }

  /** The corrected creation step for a located product: the integer quantity
      and the requested channel are stored. */
  function PlaceWhole(buyer: string, req: OrderRequest, product: Product, orders: seq<Order>,
                      now: nat, random: seq<Text.byte>): (h: Handled)
    requires RequiredFieldsPresent(req) && |random| == TransactionRandomBytes
    ensures h.response.Respond? <==>
      Insert(orders, BuildOrder(buyer, req, product, now, random, ParseInt(req.quantity.value) * 100, req.paymentChannel)).Success?
    ensures h.response.Next? ==> h.orders == orders
    ensures h.response.Respond? ==> h.response.status == 201 && h.response.body.Placed?
    ensures h.response.Respond? && h.response.body.Placed? ==>
      var o := h.response.body.order;
      && h.orders == orders + [o]
      && ValidOrder(o) && TotalConsistent(o) && HasCreationDefaults(o)
      && o.buyer == buyer && o.paymentChannel == req.paymentChannel
      && o.seller == product.seller && o.product.price == product.price
    ensures StoreInvariant(orders) ==> StoreInvariant(h.orders)
  {
    var o := BuildOrder(buyer, req, product, now, random, ParseInt(req.quantity.value) * 100, req.paymentChannel);
    BuildOrderConsistent(buyer, req, product, now, random, req.paymentChannel);
    Place(orders, o)
  }

  /** Storing the integer quantity the total is computed from keeps the
      total consistent. */
  lemma BuildOrderConsistent(buyer: string, req: OrderRequest, product: Product, now: nat, random: seq<Text.byte>,
                             channel: Option<string>)
    requires RequiredFieldsPresent(req) && |random| == TransactionRandomBytes
    ensures TotalConsistent(BuildOrder(buyer, req, product, now, random, ParseInt(req.quantity.value) * 100, channel))
  {
    var q := ParseInt(req.quantity.value);
    var p := product.price;
    assert p * q * 100 == p * (q * 100);
    var o := BuildOrder(buyer, req, product, now, random, q * 100, channel);
    assert o.totalAmount == p * q && o.product.quantity == q * 100 && o.product.price == p;
  }

  /** None of the four shipping fields is blank: each holds a character
      other than whitespace, so trimming leaves it non-empty. */
  predicate ShippingNotBlank(a: AddressInput)
    requires a.fullName.Some? && a.phoneNumber.Some? && a.streetAddress.Some? && a.city.Some?
  {
    && !Text.AllWhitespace(a.fullName.value) && !Text.AllWhitespace(a.phoneNumber.value)
    && !Text.AllWhitespace(a.streetAddress.value) && !Text.AllWhitespace(a.city.value)
  }

  /** Some product has the id, and every product with it has a seller and a
      non-negative price. */
  predicate Sellable(products: seq<Product>, id: string) {
    && (exists k :: 0 <= k < |products| && products[k].id == id)
    && (forall k :: 0 <= k < |products| && products[k].id == id ==> products[k].seller != "" && products[k].price >= 0)
  }

  /** No stored order holds the order id or the transaction id generated from
      `now` and `random`. */
  predicate FreshIds(orders: seq<Order>, now: nat, random: seq<Text.byte>) {
    forall j :: 0 <= j < |orders| ==>
      && orders[j].orderId != "ORD-" + Text.NatToDecimal(now)
      && (orders[j].transactionId.None? || !EncodesRandom(orders[j].transactionId.value, random))
  }

  /** A well-formed request for an existing product is stored by the
      corrected handler: an authenticated buyer, every field present, a
      supported method and channel, at least one whole unit, a product with a
      seller and a non-negative price, shipping fields that are not blank, and
      no stored order holding the generated order or transaction id. */
  lemma CreateOrderFixedStores(user: Option<Auth.Claims>, req: OrderRequest, products: seq<Product>,
                               orders: seq<Order>, now: nat, random: seq<Text.byte>)
    requires |random| == TransactionRandomBytes
    requires HasBuyer(user) && RequiredFieldsPresent(req) && Text.Truthy(req.paymentChannel)
    requires req.paymentMethod.value in PaymentMethods && req.paymentChannel.value in PaymentChannels
    requires req.quantity.value >= 100
    requires Sellable(products, req.productId.value)
    requires ShippingNotBlank(req.shippingAddress.value)
    requires FreshIds(orders, now, random)
    ensures CreateOrderFixed(user, req, products, orders, now, random).response.Respond?
  {
    var k := FindProduct(products, req.productId.value).value;
    assert Precheck(user, req, products) == Success(k);
    PlaceWholeStores(user.value.id.value, req, products[k], orders, now, random);
  }

  /** The corrected creation step stores the order whenever the record it
      builds is valid and its generated ids are fresh. */
  lemma PlaceWholeStores(buyer: string, req: OrderRequest, product: Product, orders: seq<Order>,
                         now: nat, random: seq<Text.byte>)
    requires RequiredFieldsPresent(req) && |random| == TransactionRandomBytes && Text.Truthy(req.paymentChannel)
    requires buyer != "" && product.seller != "" && product.price >= 0
    requires req.paymentMethod.value in PaymentMethods && req.paymentChannel.value in PaymentChannels
    requires req.quantity.value >= 100
    requires ShippingNotBlank(req.shippingAddress.value)
    requires FreshIds(orders, now, random)
    ensures PlaceWhole(buyer, req, product, orders, now, random).response.Respond?
  {
    var o := BuildOrder(buyer, req, product, now, random, ParseInt(req.quantity.value) * 100, req.paymentChannel);
    BuildOrderValid(buyer, req, product, now, random);
    FreshIdsNoClash(orders, o, now, random);
  }

  /** A record carrying the generated ids clashes with no stored order when
      those ids are fresh. */
  lemma FreshIdsNoClash(orders: seq<Order>, o: Order, now: nat, random: seq<Text.byte>)
    requires FreshIds(orders, now, random)
    requires o.orderId == "ORD-" + Text.NatToDecimal(now)
    requires o.transactionId.Some? && EncodesRandom(o.transactionId.value, random)
    ensures forall j :: 0 <= j < |orders| ==> !Clash(o, orders[j])
  {
  }

  /** The record the corrected step builds passes the schema's validation
      when the request supplies acceptable values. */
  lemma BuildOrderValid(buyer: string, req: OrderRequest, product: Product, now: nat, random: seq<Text.byte>)
    requires RequiredFieldsPresent(req) && |random| == TransactionRandomBytes && Text.Truthy(req.paymentChannel)
    requires buyer != "" && product.seller != "" && product.price >= 0
    requires req.paymentMethod.value in PaymentMethods && req.paymentChannel.value in PaymentChannels
    requires req.quantity.value >= 100
    requires ShippingNotBlank(req.shippingAddress.value)
    ensures ValidOrder(BuildOrder(buyer, req, product, now, random, ParseInt(req.quantity.value) * 100, req.paymentChannel))
  {
    var q := ParseInt(req.quantity.value);
    assert product.price * q >= 0;
    var a := req.shippingAddress.value;
    Text.TrimEmptyIffBlank(a.fullName.value);
    Text.TrimEmptyIffBlank(a.phoneNumber.value);
    Text.TrimEmptyIffBlank(a.streetAddress.value);
    Text.TrimEmptyIffBlank(a.city.value);
    var o := BuildOrder(buyer, req, product, now, random, q * 100, req.paymentChannel);
    assert q >= 1;
    assert o.product.quantity >= 100;
    assert o.totalAmount >= 0;
    assert o.shippingAddress == Shipping(req.shippingAddress.value);
  }

  /** `getOrdersByBuyerId` for the authenticated caller `buyerId`. */
  function GetOrdersByBuyerId(buyerId: string, orders: seq<Order>): (r: Response<OrderBody>)
    ensures r.Respond? && r.status == 200 && r.body.Listed?
    ensures forall o :: o in r.body.orders <==> o in orders && o.buyer == buyerId
    ensures forall o :: multiset(r.body.orders)[o] == if o.buyer == buyerId then multiset(orders)[o] else 0
    ensures |r.body.orders| <= |orders|
  {
    var mine := (o: Order) => o.buyer == buyerId;
    Collections.FilterCounts(orders, mine);
    Respond(200, Listed(Collections.Filter(orders, mine)))
  }

  /** `getOrdersBySellerId` for the authenticated caller `sellerId`. */
  function GetOrdersBySellerId(sellerId: string, orders: seq<Order>): (r: Response<OrderBody>)
    ensures r.Respond? && r.status == 200 && r.body.Listed?
    ensures forall o :: o in r.body.orders <==> o in orders && o.seller == sellerId
    ensures forall o :: multiset(r.body.orders)[o] == if o.seller == sellerId then multiset(orders)[o] else 0
    ensures |r.body.orders| <= |orders|
  {
    var mine := (o: Order) => o.seller == sellerId;
    Collections.FilterCounts(orders, mine);
    Respond(200, Listed(Collections.Filter(orders, mine)))
  }

  /** The listings keep the collection's order: listing a collection made of
      two parts lists the first part's matches before the second's, so an
      order placed later is listed after every earlier one. */
  lemma {:induction false} ListingsKeepOrder(id: string, orders: seq<Order>, later: seq<Order>)
    ensures GetOrdersByBuyerId(id, orders + later).body.orders ==
            GetOrdersByBuyerId(id, orders).body.orders + GetOrdersByBuyerId(id, later).body.orders
    ensures GetOrdersBySellerId(id, orders + later).body.orders ==
            GetOrdersBySellerId(id, orders).body.orders + GetOrdersBySellerId(id, later).body.orders
  {
    Collections.FilterConcat(orders, later, (o: Order) => o.buyer == id);
    Collections.FilterConcat(orders, later, (o: Order) => o.seller == id);
  }

  /** A placed order is listed last for its buyer and for its seller, after
      the orders they already had. */
  lemma {:induction false} PlacedOrderListedLast(orders: seq<Order>, o: Order)
    requires Place(orders, o).response.Respond?
    ensures GetOrdersByBuyerId(o.buyer, Place(orders, o).orders).body.orders ==
            GetOrdersByBuyerId(o.buyer, orders).body.orders + [o]
    ensures GetOrdersBySellerId(o.seller, Place(orders, o).orders).body.orders ==
            GetOrdersBySellerId(o.seller, orders).body.orders + [o]
  {
    assert Place(orders, o).orders == orders + [o];
    Collections.FilterAppend(orders, o, (x: Order) => x.buyer == o.buyer);
    Collections.FilterAppend(orders, o, (x: Order) => x.seller == o.seller);
  }
}

=== FILE: ordermodel.dfy ===
/** The order record and its schema: enums, minimums, defaults, the unique
    `orderId` index and the sparse unique `transactionId` index. Amounts and
    quantities are in hundredths. */
module OrderModel {
  import opened Wrappers
  import opened Errors

  datatype OrderStatus = OrderPending | Shipped | Delivered | Cancelled
  datatype PaymentStatus = Paid | PaymentPending | Failed

  const PaymentMethods: seq<string> := ["PayPack"]
  const PaymentChannels: seq<string> := ["MOMO", "CARD", "CASH", "AITEL_MONENY"]
  const DefaultPaymentMethod: string := "PayPack"
  const DefaultCurrency: string := "RWF"

  datatype ShippingAddress = ShippingAddress(fullName: string, phoneNumber: string, streetAddress: string, city: string)

  /** The product line: the product, how many (hundredths) and the unit price
      when ordered (hundredths). */
  datatype ProductLine = ProductLine(productId: string, quantity: int, price: int)

  /** A JSON object with string values: the raw provider reply or
      notification kept as `paymentMetadata`. */
  type Document = map<string, string>

  datatype Order = Order(
    orderId: string,
    buyer: string,
    seller: string,
    product: ProductLine,
    totalAmount: int,
    orderStatus: OrderStatus,
    shippingAddress: ShippingAddress,
    paymentStatus: PaymentStatus,
    paymentMethod: string,
    paymentChannel: Option<string>,
    paymentVerified: bool,
    paymentMetadata: Document,
    transactionId: Option<string>,
    paymentTimestamp: Option<int>,
    currency: string,
    orderDate: int,
    deliveryDate: Option<string>)

  /** The schema's validators. The two status enums hold by construction of
      their types; the other constraints are stated here. */
  predicate ValidOrder(o: Order) {
    && o.orderId != ""
    && o.buyer != "" && o.seller != "" && o.product.productId != ""
    && o.product.quantity >= 100
    && o.totalAmount >= 0
    && o.shippingAddress.fullName != "" && o.shippingAddress.phoneNumber != ""
    && o.shippingAddress.streetAddress != "" && o.shippingAddress.city != ""
    && o.paymentMethod in PaymentMethods
    && o.paymentChannel.Some? && o.paymentChannel.value in PaymentChannels
  }

  /** The defaults of a freshly created order. */
  predicate HasCreationDefaults(o: Order) {
    && o.orderStatus == OrderPending
    && o.paymentStatus == PaymentPending
    && !o.paymentVerified
    && o.paymentMetadata == map[]
    && o.paymentTimestamp.None?
    && o.currency == DefaultCurrency
  }

  /** Two records that one of the unique indexes refuses to hold together. */
  predicate Clash(a: Order, b: Order) {
    a.orderId == b.orderId || (a.transactionId.Some? && a.transactionId == b.transactionId)
  }

  predicate UniqueOrderIds(orders: seq<Order>) {
    forall i, j :: 0 <= i < j < |orders| ==> orders[i].orderId != orders[j].orderId
  }

  /** Sparse uniqueness: a present transaction id occurs once; any number of
      orders may have none. */
  predicate UniqueTransactionIds(orders: seq<Order>) {
    forall i, j :: 0 <= i < j < |orders| && orders[i].transactionId.Some? ==>
      orders[i].transactionId != orders[j].transactionId
  }

  predicate StoreInvariant(orders: seq<Order>) {
    && (forall i :: 0 <= i < |orders| ==> ValidOrder(orders[i]))
    && UniqueOrderIds(orders)
    && UniqueTransactionIds(orders)
  }

  const ValidationFailed: AppError := PlainError("ValidationError", "Order validation failed")
  const DuplicateKey: AppError := PlainError("MongoServerError", "E11000 duplicate key error")

  /** `Order.create(o)`: validation, then both unique indexes, then the insert. */
  function Insert(orders: seq<Order>, o: Order): (r: Result<seq<Order>, AppError>)
    ensures r.Success? <==> ValidOrder(o) && forall j :: 0 <= j < |orders| ==> !Clash(o, orders[j])
    ensures r.Success? ==> r.value == orders + [o]
    ensures r.Failure? ==> r.error.statusCode.None?
    ensures r.Success? && StoreInvariant(orders) ==> StoreInvariant(r.value)
  {
    if !ValidOrder(o) then Failure(ValidationFailed)
    else if exists j :: 0 <= j < |orders| && Clash(o, orders[j]) then Failure(DuplicateKey)
    else Success(orders + [o])
  }

  /** `order.save()` for the record at position `i`, now holding `o`. */
  function Save(orders: seq<Order>, i: nat, o: Order): (r: Result<seq<Order>, AppError>)
    requires i < |orders|
    ensures r.Success? <==> ValidOrder(o) && forall j :: 0 <= j < |orders| && j != i ==> !Clash(o, orders[j])
    ensures r.Success? ==> r.value == orders[i := o]
    ensures r.Failure? ==> r.error.statusCode.None?
    ensures r.Success? && StoreInvariant(orders) ==> StoreInvariant(r.value)
  {
    if !ValidOrder(o) then Failure(ValidationFailed)
    else if exists j :: 0 <= j < |orders| && j != i && Clash(o, orders[j]) then Failure(DuplicateKey)
    else
      var orders' := orders[i := o];
      assert StoreInvariant(orders) ==> StoreInvariant(orders') by {
        if StoreInvariant(orders) {
          forall a, b | 0 <= a < b < |orders'| && orders'[a].transactionId.Some?
            ensures orders'[a].transactionId != orders'[b].transactionId
          {
            if a == i {
              assert !Clash(o, orders[b]);
            } else if b == i {
              assert !Clash(o, orders[a]);
            }
          }
          forall a, b | 0 <= a < b < |orders'|
            ensures orders'[a].orderId != orders'[b].orderId
          {
            if a == i {
              assert !Clash(o, orders[b]);
            } else if b == i {
              assert !Clash(o, orders[a]);
            }
          }
        }
      }
      Success(orders')
  }

  /** Saving a record whose identifying fields are unchanged never trips a
      unique index in a store that satisfies the invariant. */
  lemma SaveSameKeysSucceeds(orders: seq<Order>, i: nat, o: Order)
    requires StoreInvariant(orders) && i < |orders|
    requires o.orderId == orders[i].orderId && o.transactionId == orders[i].transactionId
    requires ValidOrder(o)
    ensures Save(orders, i, o).Success?
  {
    forall j | 0 <= j < |orders| && j != i
      ensures !Clash(o, orders[j])
    {
      if j < i {
        assert orders[j].orderId != orders[i].orderId;
      } else {
        assert orders[i].orderId != orders[j].orderId;
      }
    }
  }

  /** Orders without a transaction id never clash on that index. */
  lemma AbsentTransactionIdsAllowed(orders: seq<Order>)
    requires forall i :: 0 <= i < |orders| ==> orders[i].transactionId.None?
    ensures UniqueTransactionIds(orders)
  {
  }
}

=== FILE: paypack.dfy ===
/** The PayPack payment flow: the one-slot access-token cache, payment
    initiation, manual verification and the provider's notification webhook,
    each a transition over the order collection. Provider replies, the clock
    and the configured callback URL are inputs; every request the handlers
    send to the provider is recorded in a trace, in order. */
module PayPack {
  import opened Wrappers
  import opened Errors
  import opened Http
  import opened OrderModel
  import Collections
  import Text
  import UserModel

  // ---------------------------------------------------------------------------
  // Provider interface

  /** A request sent to the provider. `bearer` is the Authorization header. */
  datatype ProviderCall =
    | RequestToken
    | RequestCollection(amount: int, phone: string, txRef: string, callbackUrl: string, bearer: string)
    | QueryTransaction(transactionId: string, bearer: string)

  /** The reply to the token request: its `token` field, or a thrown error. */
  datatype TokenReply = TokenIssued(token: Option<string>) | TokenCallThrew(err: AppError)

  /** The reply to the collection request. */
  datatype CollectionReply = CollectionAccepted | CollectionThrew(err: AppError)

  /** The reply to the transaction query: its body, if any, or a thrown error. */
  datatype QueryReply = QueryAnswered(data: Option<Document>) | QueryThrew(err: AppError)

  const TokenFailure: AppError := PlainError("Error", "Failed to retrieve PayPack token")

  function Bearer(token: string): string {
    "Bearer " + token
  }

  /** A field of a JSON object with string values. */
  function Field(d: Document, key: string): Option<string> {
    if key in d then Some(d[key]) else None
  }

  /** `status.toUpperCase() === 'SUCCESSFUL'`. */
  predicate IsSuccessful(status: string) {
    Text.ToUpper(status) == "SUCCESSFUL"
  }

  // ---------------------------------------------------------------------------
  // Token cache

  /** The outcome of `getPaypackToken`: the token or the error, the cache
      slot afterwards and the requests sent. */
  datatype TokenStep = TokenStep(result: Result<string, AppError>, slot: Option<string>, calls: seq<ProviderCall>)

  /** `getPaypackToken`: a truthy cached token is returned without a request;
      otherwise the provider is asked and a truthy reply is cached. */
  function GetToken(slot: Option<string>, reply: TokenReply): (t: TokenStep)
    ensures Text.Truthy(slot) ==> t == TokenStep(Success(slot.value), slot, [])
    ensures !Text.Truthy(slot) ==> t.calls == [RequestToken]
    ensures t.result.Success? ==> t.slot == Some(t.result.value) && t.result.value != ""
    ensures t.result.Failure? ==> t.slot == slot
    ensures !Text.Truthy(slot) ==>
      (t.result.Success? <==> reply.TokenIssued? && Text.Truthy(reply.token))
    ensures !Text.Truthy(slot) && reply.TokenIssued? && Text.Truthy(reply.token) ==> t.result.value == reply.token.value
    ensures !Text.Truthy(slot) && reply.TokenIssued? && !Text.Truthy(reply.token) ==> t.result == Failure(TokenFailure)
    ensures !Text.Truthy(slot) && reply.TokenCallThrew? ==> t.result == Failure(reply.err)
  {
    if Text.Truthy(slot) then TokenStep(Success(slot.value), slot, [])
    else
      match reply
      case TokenCallThrew(e) => TokenStep(Failure(e), slot, [RequestToken])
      case TokenIssued(token) =>
        if !Text.Truthy(token) then TokenStep(Failure(TokenFailure), slot, [RequestToken])
        else TokenStep(Success(token.value), token, [RequestToken])
  }

  /** Once a token has been obtained, every later request reuses it without
      contacting the provider, whatever the provider would have said; a
      failed request leaves an empty slot empty. */
  lemma TokenCached(slot: Option<string>, first: TokenReply, later: TokenReply)
    ensures var t := GetToken(slot, first);
      && (t.result.Success? ==> GetToken(t.slot, later) == TokenStep(t.result, t.slot, []))
      && (t.result.Failure? && !Text.Truthy(slot) ==> !Text.Truthy(t.slot))
  {
  }

  // ---------------------------------------------------------------------------
  // Handler outcome

  datatype PayReply =
    | Initiated(reference: string, orderId: string)   // 200, success true
    | Verified(order: Order)                          // 200, success true, 'Payment verified'
    | NotYet(status: string)                          // 200, success false, 'Payment not successful yet'
    | Plain(success: bool, message: string)

  const InitiatedMessage: string := "Payment request sent to user phone"

  /** A handler's response, the order collection and token slot afterwards,
      and the provider requests made. */
  datatype Outcome = Outcome(response: Response<PayReply>, orders: seq<Order>, slot: Option<string>, calls: seq<ProviderCall>)

  function FindByOrderId(orders: seq<Order>, orderId: string): Option<nat> {
    Collections.FirstIndex(orders, (o: Order) => o.orderId == orderId)
  }

  function FindByTransactionId(orders: seq<Order>, transactionId: string): Option<nat> {
    Collections.FirstIndex(orders, (o: Order) => o.transactionId == Some(transactionId))
  }

  /** The thrown `TypeError` when the populated buyer is missing. */
  const MissingBuyer: AppError := PlainError("TypeError", "Cannot read properties of null (reading 'phoneNumber')")

  // ---------------------------------------------------------------------------
  // Initiate

  /** The order with the new transaction id; nothing else changes. */
  function Stamp(o: Order, now: nat): (o': Order)
    ensures o'.transactionId == Some("TX-" + Text.NatToDecimal(now))
    ensures o' == o.(transactionId := o'.transactionId)
  {
    o.(transactionId := Some("TX-" + Text.NatToDecimal(now)))
  }

  /** The steps after the order and buyer are known: fetch the token, stamp
      and save the order, then ask for the collection. */
  function Collect(orders: seq<Order>, i: nat, phone: string, slot: Option<string>, now: nat,
                   tokenReply: TokenReply, collectionReply: CollectionReply, callbackUrl: string): (r: Outcome)
    requires i < |orders|
    ensures var t := GetToken(slot, tokenReply);
      && r.slot == t.slot
      && (t.result.Failure? ==> r == Outcome(Next(t.result.error), orders, slot, t.calls))
      && (t.result.Success? && Save(orders, i, Stamp(orders[i], now)).Failure? ==>
            r == Outcome(Next(Save(orders, i, Stamp(orders[i], now)).error), orders, t.slot, t.calls))
      && (t.result.Success? && Save(orders, i, Stamp(orders[i], now)).Success? ==>
            && r.orders == orders[i := Stamp(orders[i], now)]
            && r.calls == t.calls + [RequestCollection(orders[i].totalAmount, phone, "TX-" + Text.NatToDecimal(now),
                                                       callbackUrl, Bearer(t.result.value))]
            && (collectionReply.CollectionThrew? ==> r.response == Next(collectionReply.err))
            && (collectionReply.CollectionAccepted? ==>
                  r.response == Respond(200, Initiated("TX-" + Text.NatToDecimal(now), orders[i].orderId))))
  {
    var t := GetToken(slot, tokenReply);
    if t.result.Failure? then Outcome(Next(t.result.error), orders, slot, t.calls)
    else
      var tx := "TX-" + Text.NatToDecimal(now);
      match Save(orders, i, Stamp(orders[i], now))
      case Failure(e) => Outcome(Next(e), orders, t.slot, t.calls)
      case Success(orders') =>
        var calls := t.calls + [RequestCollection(orders[i].totalAmount, phone, tx, callbackUrl, Bearer(t.result.value))];
        match collectionReply
        case CollectionThrew(e) => Outcome(Next(e), orders', t.slot, calls)
        case CollectionAccepted => Outcome(Respond(200, Initiated(tx, orders[i].orderId)), orders', t.slot, calls)
  }

  /** The buyer's phone number after `populate('buyer')`, or `None` when the
      buyer record is missing. */
  function BuyerPhone(users: seq<UserModel.User>, buyer: string): (r: Option<string>)
    ensures r.None? <==> forall k :: 0 <= k < |users| ==> users[k].id != buyer
    ensures r.Some? ==> exists k :: 0 <= k < |users| && users[k].id == buyer && users[k].phoneNumber == r.value
  {
    match Collections.FirstIndex(users, (u: UserModel.User) => u.id == buyer)
    case None => None
    case Some(k) => Some(users[k].phoneNumber)
  }

  /** `initiatePaypackPayment`. `users` is the user collection the buyer is
      populated from, `now` is `Date.now()` and `callbackEnv` the configured
      callback URL. */
  function Initiate(orderId: Option<string>, orders: seq<Order>, users: seq<UserModel.User>, slot: Option<string>,
                    now: nat, tokenReply: TokenReply, collectionReply: CollectionReply,
                    callbackEnv: Option<string>): (r: Outcome)
    ensures !Text.Truthy(orderId) ==> r == Outcome(Next(BadRequestError("Missing orderId")), orders, slot, [])
    ensures Text.Truthy(orderId) && FindByOrderId(orders, orderId.value).None? ==>
      r == Outcome(Next(NotFoundError("Order not found")), orders, slot, [])
    ensures Text.Truthy(orderId) && FindByOrderId(orders, orderId.value).Some? ==>
      var i := FindByOrderId(orders, orderId.value).value;
      var phone := BuyerPhone(users, orders[i].buyer);
      var tx := "TX-" + Text.NatToDecimal(now);
      var request := RequestCollection(orders[i].totalAmount, phone.GetOr(""), tx, CallbackUrl(callbackEnv),
                                       Bearer(r.slot.GetOr("")));
      && (phone.None? ==> r == Outcome(Next(MissingBuyer), orders, slot, []))
      && (phone == Some("") ==> r == Outcome(Next(BadRequestError("Buyer phone number is missing")), orders, slot, []))
      && (phone.Some? && phone.value != "" ==>
            r == Collect(orders, i, phone.value, slot, now, tokenReply, collectionReply, CallbackUrl(callbackEnv)))
      && (r.response.Respond? ==> r.response == Respond(200, Initiated(tx, orders[i].orderId)) && request in r.calls)
      && (request in r.calls ==> r.orders == orders[i := Stamp(orders[i], now)])
      && (r.orders != orders ==> request in r.calls)
    ensures StoreInvariant(orders) ==> StoreInvariant(r.orders)
  {
    if !Text.Truthy(orderId) then Outcome(Next(BadRequestError("Missing orderId")), orders, slot, [])
    else
      match FindByOrderId(orders, orderId.value)
      case None => Outcome(Next(NotFoundError("Order not found")), orders, slot, [])
      case Some(i) =>
        match BuyerPhone(users, orders[i].buyer)
        case None => Outcome(Next(MissingBuyer), orders, slot, [])
        case Some(phone) =>
          if phone == "" then Outcome(Next(BadRequestError("Buyer phone number is missing")), orders, slot, [])
          else Collect(orders, i, phone, slot, now, tokenReply, collectionReply, CallbackUrl(callbackEnv))
  }

  /** `process.env.PAYPACK_CALLBACK_URL || ''`. */
  function CallbackUrl(env: Option<string>): string {
    if Text.Truthy(env) then env.value else ""
  }

  // ---------------------------------------------------------------------------
  // Verify

  /** The order as marked paid by a successful verification. */
  function MarkPaid(o: Order, payment: Document): (o': Order)
    ensures o'.paymentStatus == Paid && o'.paymentVerified && o'.paymentMetadata == payment
    ensures o'.orderId == o.orderId && o'.transactionId == o.transactionId
  {
    o.(paymentStatus := Paid, paymentVerified := true, paymentMetadata := payment)
  }

  /** The payment data is usable: present, with a truthy `status`. */
  predicate UsablePayment(data: Option<Document>) {
    data.Some? && Text.Truthy(Field(data.value, "status"))
  }

  /** `verifyPaypackPayment`. */
  function Verify(transactionId: Option<string>, orders: seq<Order>, slot: Option<string>,
                  tokenReply: TokenReply, queryReply: QueryReply): (r: Outcome)
    ensures !Text.Truthy(transactionId) ==> r == Outcome(Next(BadRequestError("Missing transactionId")), orders, slot, [])
    ensures Text.Truthy(transactionId) && FindByTransactionId(orders, transactionId.value).None? ==>
      r == Outcome(Next(NotFoundError("Order not found")), orders, slot, [])
    ensures Text.Truthy(transactionId) && FindByTransactionId(orders, transactionId.value).Some? ==>
      var i := FindByTransactionId(orders, transactionId.value).value;
      var t := GetToken(slot, tokenReply);
      && r.slot == t.slot
      && (t.result.Failure? ==> r == Outcome(Next(t.result.error), orders, slot, t.calls))
      && (t.result.Success? ==> r.calls == t.calls + [QueryTransaction(transactionId.value, Bearer(t.result.value))])
      && (t.result.Success? && queryReply.QueryThrew? ==> r.response == Next(queryReply.err) && r.orders == orders)
      && (t.result.Success? && queryReply.QueryAnswered? ==>
            var data := queryReply.data;
            && (!UsablePayment(data) ==>
                  r.response == Respond(400, Plain(false, "Invalid payment data received")) && r.orders == orders)
            && (UsablePayment(data) && !IsSuccessful(data.value["status"]) ==>
                  r.response == Respond(200, NotYet(data.value["status"])) && r.orders == orders)
            && (UsablePayment(data) && IsSuccessful(data.value["status"]) ==>
                  match Save(orders, i, MarkPaid(orders[i], data.value))
                  case Failure(e) => r.response == Next(e) && r.orders == orders
                  case Success(orders') =>
                    r.response == Respond(200, Verified(MarkPaid(orders[i], data.value))) && r.orders == orders'))
    ensures StoreInvariant(orders) ==> StoreInvariant(r.orders)
  {
    if !Text.Truthy(transactionId) then Outcome(Next(BadRequestError("Missing transactionId")), orders, slot, [])
    else
      match FindByTransactionId(orders, transactionId.value)
      case None => Outcome(Next(NotFoundError("Order not found")), orders, slot, [])
      case Some(i) =>
        var t := GetToken(slot, tokenReply);
        if t.result.Failure? then Outcome(Next(t.result.error), orders, slot, t.calls)
        else
          var calls := t.calls + [QueryTransaction(transactionId.value, Bearer(t.result.value))];
          match queryReply
          case QueryThrew(e) => Outcome(Next(e), orders, t.slot, calls)
          case QueryAnswered(data) =>
            if !UsablePayment(data) then
              Outcome(Respond(400, Plain(false, "Invalid payment data received")), orders, t.slot, calls)
            else if !IsSuccessful(data.value["status"]) then
              Outcome(Respond(200, NotYet(data.value["status"])), orders, t.slot, calls)
            else
              var paid := MarkPaid(orders[i], data.value);
              match Save(orders, i, paid)
              case Failure(e) => Outcome(Next(e), orders, t.slot, calls)
              case Success(orders') => Outcome(Respond(200, Verified(paid)), orders', t.slot, calls)
  }

  /** Verification changes the collection only by marking the matched order
      paid, and only when the provider reports success. */
  lemma VerifyChangesOnlyOnSuccess(transactionId: Option<string>, orders: seq<Order>, slot: Option<string>,
                                   tokenReply: TokenReply, queryReply: QueryReply)
    ensures var r := Verify(transactionId, orders, slot, tokenReply, queryReply);
      r.orders != orders ==>
        && queryReply.QueryAnswered? && UsablePayment(queryReply.data)
        && IsSuccessful(queryReply.data.value["status"])
        && exists i :: 0 <= i < |orders| && orders[i].transactionId == transactionId
             && r.orders == orders[i := MarkPaid(orders[i], queryReply.data.value)]
  {
  }

  // ---------------------------------------------------------------------------
  // Webhook

  /** `tx_ref || transactionId`: the second operand when the first is falsy. */
  function Reference(body: Document): (ref: Option<string>)
    ensures Text.Truthy(Field(body, "tx_ref")) ==> ref == Field(body, "tx_ref")
    ensures !Text.Truthy(Field(body, "tx_ref")) ==> ref == Field(body, "transactionId")
  {
    if Text.Truthy(Field(body, "tx_ref")) then Field(body, "tx_ref") else Field(body, "transactionId")
  }

  /** The order as updated by a notification. */
  function Notify(o: Order, body: Document, status: string): (o': Order)
    ensures o'.paymentStatus == (if IsSuccessful(status) then Paid else Failed)
    ensures o'.paymentVerified && o'.paymentMetadata == body
    ensures o'.orderId == o.orderId && o'.transactionId == o.transactionId
  {
    o.(paymentStatus := if IsSuccessful(status) then Paid else Failed,
       paymentVerified := true,
       paymentMetadata := body)
  }

  /** `handlePaypackNotification`: returns the response and the collection. */
  function Webhook(body: Document, orders: seq<Order>): (r: (Response<PayReply>, seq<Order>))
    ensures !Text.Truthy(Reference(body)) || !Text.Truthy(Field(body, "status")) ==>
      r == (Respond(400, Plain(false, "Invalid notification payload")), orders)
    ensures Text.Truthy(Reference(body)) && Text.Truthy(Field(body, "status"))
            && FindByTransactionId(orders, Reference(body).value).None? ==>
      r == (Respond(404, Plain(false, "Order not found")), orders)
    ensures Text.Truthy(Reference(body)) && Text.Truthy(Field(body, "status"))
            && FindByTransactionId(orders, Reference(body).value).Some? ==>
      var i := FindByTransactionId(orders, Reference(body).value).value;
      match Save(orders, i, Notify(orders[i], body, body["status"]))
      case Failure(e) => r == (Next(e), orders)
      case Success(orders') => r == (Respond(200, Plain(true, "Notification processed successfully")), orders')
    ensures StoreInvariant(orders) ==> StoreInvariant(r.1)
  {
    var ref := Reference(body);
    var status := Field(body, "status");
    if !Text.Truthy(ref) || !Text.Truthy(status) then
      (Respond(400, Plain(false, "Invalid notification payload")), orders)
    else
      match FindByTransactionId(orders, ref.value)
      case None => (Respond(404, Plain(false, "Order not found")), orders)
      case Some(i) =>
        match Save(orders, i, Notify(orders[i], body, status.value))
        case Failure(e) => (Next(e), orders)
        case Success(orders') => (Respond(200, Plain(true, "Notification processed successfully")), orders')
  }

  /** The two notifications below carry the same reference and a status. */
  predicate SameReference(a: Document, b: Document) {
    && Text.Truthy(Reference(a)) && Text.Truthy(Field(a, "status"))
    && Reference(b) == Reference(a) && Text.Truthy(Field(b, "status"))
  }

  /** A second notification for the same order finds the same record, and
      saving it passes exactly when saving the first did: only payment fields
      differ, and the schema does not constrain them. */
  lemma {:induction false} SecondNotification(first: Document, second: Document, orders: seq<Order>)
    requires SameReference(first, second)
    requires Webhook(first, orders).0.Respond? && Webhook(first, orders).0.status == 200
    ensures var ref := Reference(first).value;
      var i := FindByTransactionId(orders, ref).value;
      var after := Webhook(first, orders).1;
      && FindByTransactionId(orders, ref).Some?
      && after == orders[i := Notify(orders[i], first, first["status"])]
      && FindByTransactionId(after, ref) == Some(i)
      && Webhook(second, after) ==
           (Respond(200, Plain(true, "Notification processed successfully")),
            orders[i := Notify(orders[i], second, second["status"])])
  {
    var ref := Reference(first).value;
    var i := FindByTransactionId(orders, ref).value;
    var n1 := Notify(orders[i], first, first["status"]);
    var n2 := Notify(orders[i], second, second["status"]);
    var after := orders[i := n1];
    Collections.FirstIndexAfterUpdate(orders, (o: Order) => o.transactionId == Some(ref), i, n1);
    assert FindByTransactionId(after, ref) == Some(i);
    assert Save(orders, i, n1).Success?;
    assert Notify(after[i], second, second["status"]) == n2;
    forall j | 0 <= j < |after| && j != i
      ensures !Clash(n2, after[j])
    {
      assert after[j] == orders[j];
      assert !Clash(n1, orders[j]);
    }
    assert Save(after, i, n2).Success?;
    assert after[i := n2] == orders[i := n2];
  }

  /** Applying the same notification twice has the effect of applying it
      once. */
  lemma WebhookIdempotent(body: Document, orders: seq<Order>)
    ensures Webhook(body, Webhook(body, orders).1) == Webhook(body, orders)
  {
    var r := Webhook(body, orders);
    if r.0.Respond? && r.0.status == 200 {
      SecondNotification(body, body, orders);
      var i := FindByTransactionId(orders, Reference(body).value).value;
      assert orders[i := Notify(orders[i], body, body["status"])] == r.1;
    }
  }

  /** There is no terminal-state guard: a later failure notification for a
      paid order marks it failed. */
  lemma LateFailureOverwritesPaid(paid: Document, failed: Document, orders: seq<Order>)
    requires SameReference(paid, failed)
    requires IsSuccessful(paid["status"]) && !IsSuccessful(failed["status"])
    requires Webhook(paid, orders).0.Respond? && Webhook(paid, orders).0.status == 200
    ensures var i := FindByTransactionId(orders, Reference(paid).value).value;
      && Webhook(paid, orders).1[i].paymentStatus == Paid
      && Webhook(failed, Webhook(paid, orders).1).1[i].paymentStatus == Failed
  {
    SecondNotification(paid, failed, orders);
  }

  /** Upper-casing accepts any letter case. */
  lemma LowerCaseSucceeds()
    ensures IsSuccessful("successful")
  {
    UpperUcce();
    UpperFul();
    assert Text.ToUpper("succe") == "SUCCE";
    assert Text.ToUpper("sful") == "SFUL";
    assert Text.ToUpper("ssful") == "SSFUL";
    Text.ToUpperAppend("succe", "ssful");
    assert "succe" + "ssful" == "successful";
    assert "SUCCE" + "SSFUL" == "SUCCESSFUL";
  }

  /** Success is decided after upper-casing, so a status spelled with the long
      s and the sharp s counts as success too. */
  lemma LongAndSharpSSucceed()
    ensures IsSuccessful("\U{17F}ucce\U{DF}ful")
  {
    UpperUcce();
    UpperFul();
    assert Text.ToUpper("\U{17F}ucce") == "SUCCE";
    assert Text.ToUpper("\U{DF}ful") == "SSFUL";
    Text.ToUpperAppend("\U{17F}ucce", "\U{DF}ful");
    assert "\U{17F}ucce" + "\U{DF}ful" == "\U{17F}ucce\U{DF}ful";
    assert "SUCCE" + "SSFUL" == "SUCCESSFUL";
  }

  /** The tails the two spellings above share. */
  lemma UpperUcce()
    ensures Text.ToUpper("ucce") == "UCCE"
  {
    assert Text.ToUpper("e") == "E";
    assert Text.ToUpper("ce") == "CE";
    assert Text.ToUpper("cce") == "CCE";
  }

  lemma UpperFul()
    ensures Text.ToUpper("ful") == "FUL"
  {
    assert Text.ToUpper("l") == "L";
    assert Text.ToUpper("ul") == "UL";
  }
}

=== FILE: productcontroller.dfy ===
/** The product handlers: `addProduct`'s check order and image rule, the
    look-ups by id and by seller, the search-filter builder and deletion.
    The image host's upload result and the new record's id are inputs; the
    product schema file is not part of this model, so `Product.create` is
    taken to succeed. */
module ProductController {
  import opened Wrappers
  import opened Errors
  import opened Http
  import opened ProductModel
  import Auth
  import Collections
  import Text
  import Validation

  /** What the image host returns for an uploaded file. */
  datatype UploadResult = UploadResult(secureUrl: string, publicId: string)

  datatype ProductReply =
    | Added(message: string, product: Product)      // 201
    | Found(product: Product, seller: string)       // 200
    | Listed(products: seq<Product>)                // 200
    | Filtered(message: string, count: nat, products: seq<Product>)  // 200
    | Removed(message: string)                      // 200

  datatype Handled = Handled(response: Response<ProductReply>, products: seq<Product>)

  predicate HasSeller(user: Option<Auth.Claims>) {
    user.Some? && Text.Truthy(user.value.id)
  }

  /** `images: imageUrl ? [{ url, public_id }] : []`. */
  function Images(file: Option<UploadResult>): (r: seq<Image>)
    ensures |r| <= 1
    ensures r == [] <==> file.None? || file.value.secureUrl == ""
    ensures r != [] ==> r[0] == Image(file.value.secureUrl, file.value.publicId)
  {
    if file.Some? && file.value.secureUrl != "" then [Image(file.value.secureUrl, file.value.publicId)] else []
  }

  /** `addProduct`: the seller check comes before validation, the seller is
      taken from the token, and the body's fields are stored as given. */
  function AddProduct(user: Option<Auth.Claims>, body: Validation.ProductBody, isUri: string -> bool,
                      file: Option<UploadResult>, products: seq<Product>, newId: string): (h: Handled)
    ensures !HasSeller(user) ==> h == Handled(Next(NotFoundError("seller not found")), products)
    ensures HasSeller(user) && !Validation.ProductValid(body, isUri) ==>
      h == Handled(Next(BadRequestError(Validation.Message(Validation.ProductViolations(body, isUri)))), products)
    ensures h.response.Respond? <==> HasSeller(user) && Validation.ProductValid(body, isUri)
    ensures h.response.Respond? ==>
      && h.response.status == 201 && h.response.body.Added?
      && h.response.body.message == "Product added successfully"
      && h.products == products + [h.response.body.product]
    ensures h.response.Respond? && h.response.body.Added? ==>
      var p := h.response.body.product;
      && p.id == newId && p.seller == user.value.id.value
      && Some(p.name) == body.name && Some(p.description) == body.description
      && Some(p.price) == body.price && Some(p.category) == body.category
      && Some(p.stock) == body.stock && Some(p.location) == body.location
      && p.images == Images(file)
    ensures h.response.Next? ==> h.products == products
  {
    if !HasSeller(user) then Handled(Next(NotFoundError("seller not found")), products)
    else
      var violations := Validation.ProductViolations(body, isUri);
      if violations != [] then Handled(Next(BadRequestError(Validation.Message(violations))), products)
      else
        var p := Product(newId, body.name.value, body.description.value, body.price.value, body.category.value,
                         body.stock.value, body.location.value, user.value.id.value, Images(file));
        Handled(Respond(201, Added("Product added successfully", p)), products + [p])
  }

  /** A body that names its own seller is refused before anything is stored,
      so the seller can only come from the token. */
  lemma SellerComesFromToken(user: Option<Auth.Claims>, body: Validation.ProductBody, isUri: string -> bool,
                             file: Option<UploadResult>, products: seq<Product>, newId: string)
    requires HasSeller(user) && "seller" in body.extraKeys
    ensures AddProduct(user, body, isUri, file, products, newId).response.Next?
    ensures AddProduct(user, body, isUri, file, products, newId).response.err.statusCode == Some(400)
    ensures AddProduct(user, body, isUri, file, products, newId).products == products
  {
    Validation.SellerKeyRefused(body, isUri);
  }

  function FindById(products: seq<Product>, id: string): Option<nat> {
    Collections.FirstIndex(products, (p: Product) => p.id == id)
  }

  /** `getProductById`. */
  function GetProductById(id: string, products: seq<Product>): (r: Response<ProductReply>)
    ensures r.Next? <==> forall k :: 0 <= k < |products| ==> products[k].id != id
    ensures r.Next? ==> r.err == NotFoundError("Product not found")
    ensures r.Respond? ==>
      (r.status == 200 && r.body.Found? && r.body.product in products && r.body.product.id == id
       && r.body.seller == r.body.product.seller)
  {
    match FindById(products, id)
    case None => Next(NotFoundError("Product not found"))
    case Some(k) => Respond(200, Found(products[k], products[k].seller))
  }

  /** `getBySellerId`: a query result is an array, which is never falsy, so
      the not-found branch cannot be taken and an unknown seller gets an
      empty list. */
  function GetBySellerId(sellerId: string, products: seq<Product>): (r: Response<ProductReply>)
    ensures r.Respond? && r.status == 200 && r.body.Listed?
    ensures forall p :: p in r.body.products <==> p in products && p.seller == sellerId
    ensures forall p :: multiset(r.body.products)[p] == if p.seller == sellerId then multiset(products)[p] else 0
    ensures |r.body.products| <= |products|
  {
    var theirs := (p: Product) => p.seller == sellerId;
    Collections.FilterCounts(products, theirs);
    Respond(200, Listed(Collections.Filter(products, theirs)))
  }

  /** `deleteProduct`: the record found by id is removed, nothing else. */
  function DeleteProduct(id: string, products: seq<Product>): (h: Handled)
    ensures h.response.Next? <==> forall k :: 0 <= k < |products| ==> products[k].id != id
    ensures h.response.Next? ==> h.response.err == NotFoundError("Product not found!") && h.products == products
    ensures h.response.Respond? ==>
      && h.response == Respond(200, Removed("Successfully deleted Product"))
      && |h.products| == |products| - 1
      && (exists k :: 0 <= k < |products| && products[k].id == id && h.products == products[..k] + products[k + 1..])
  {
    match FindById(products, id)
    case None => Handled(Next(NotFoundError("Product not found!")), products)
    case Some(k) => Handled(Respond(200, Removed("Successfully deleted Product")), products[..k] + products[k + 1..])
  }

  /** Ids are unique in the product collection. */
  predicate UniqueIds(products: seq<Product>) {
    forall i, j :: 0 <= i < j < |products| ==> products[i].id != products[j].id
  }

  /** Deleting a product from a collection with unique ids leaves no product
      with that id, and every other product is kept. */
  lemma DeleteRemovesExactly(id: string, products: seq<Product>)
    requires UniqueIds(products)
    ensures var h := DeleteProduct(id, products);
      && (forall p :: p in h.products ==> p.id != id)
      && (forall p :: p in products && p.id != id ==> p in h.products)
  {
    match FindById(products, id)
    case None =>
    case Some(k) =>
      var rest := products[..k] + products[k + 1..];
      assert |rest| == |products| - 1;
      forall p | p in rest
        ensures p.id != id
      {
        var j :| 0 <= j < |rest| && rest[j] == p;
        assert p == (if j < k then products[j] else products[j + 1]);
      }
      forall p | p in products && p.id != id
        ensures p in rest
      {
        var j :| 0 <= j < |products| && products[j] == p;
        assert rest[if j < k then j else j - 1] == p;
      }
  }

  // ---------------------------------------------------------------------------
  // Search filter

  /** The request body of the filter endpoint; `price` is a JSON number in
      hundredths. */
  datatype FilterBody = FilterBody(name: Option<string>, price: Option<int>, category: Option<string>)

  /** The query object: a key is present exactly when it was set. */
  datatype Query = Query(nameRegex: Option<string>, price: Option<int>, category: Option<string>)

  const EmptyQuery: Query := Query(None, None, None)

  /** `filterProductByNameAndPriceAndCategory`'s builder: each key is added
      only for a truthy body field. */
  function BuildQuery(b: FilterBody): (q: Query)
    ensures q.nameRegex.Some? <==> Text.Truthy(b.name)
    ensures q.price.Some? <==> b.price.Some? && b.price.value != 0
    ensures q.category.Some? <==> Text.Truthy(b.category)
    ensures q.nameRegex.Some? ==> q.nameRegex == b.name
    ensures q.price.Some? ==> q.price == b.price
    ensures q.category.Some? ==> q.category == b.category
  {
    Query(
      if Text.Truthy(b.name) then b.name else None,
      if b.price.Some? && b.price.value != 0 then b.price else None,
      if Text.Truthy(b.category) then b.category else None)
  }

  /** Whether a product satisfies every key of the query. The case-insensitive
      regular-expression test is the parameter `regexMatch(pattern, subject)`. */
  predicate Matches(q: Query, p: Product, regexMatch: (string, string) -> bool) {
    && (q.nameRegex.Some? ==> regexMatch(q.nameRegex.value, p.name))
    && (q.price.Some? ==> p.price == q.price.value)
    && (q.category.Some? ==> p.category == q.category.value)
  }

  /** The filter endpoint: the matching products and their count. */
  function FilterProducts(b: FilterBody, products: seq<Product>, regexMatch: (string, string) -> bool): (r: Response<ProductReply>)
    ensures r.Respond? && r.status == 200 && r.body.Filtered?
    ensures r.body.message == "product is filtered successfully"
    ensures r.body.count == |r.body.products| <= |products|
    ensures forall p :: p in r.body.products <==> p in products && Matches(BuildQuery(b), p, regexMatch)
    ensures forall p ::
      multiset(r.body.products)[p] == if Matches(BuildQuery(b), p, regexMatch) then multiset(products)[p] else 0
  {
    var q := BuildQuery(b);
    var matching := (p: Product) => Matches(q, p, regexMatch);
    Collections.FilterCounts(products, matching);
    var found := Collections.Filter(products, matching);
    Respond(200, Filtered("product is filtered successfully", |found|, found))
  }

  /** With no truthy field the query is empty and every product is returned,
      in order. */
  lemma EmptyFilterReturnsAll(b: FilterBody, products: seq<Product>, regexMatch: (string, string) -> bool)
    requires !Text.Truthy(b.name) && !Text.Truthy(b.category) && (b.price.None? || b.price.value == 0)
    ensures BuildQuery(b) == EmptyQuery
    ensures FilterProducts(b, products, regexMatch).body.products == products
  {
    Collections.FilterAll(products, (p: Product) => Matches(BuildQuery(b), p, regexMatch));
  }

  /** The seller listing and the filter keep the collection's order: the
      matches of a collection made of two parts are the first part's followed
      by the second's, so a product added later comes after earlier ones. */
  lemma {:induction false} ListingsKeepOrder(sellerId: string, b: FilterBody, products: seq<Product>, later: seq<Product>,
                          regexMatch: (string, string) -> bool)
    ensures GetBySellerId(sellerId, products + later).body.products ==
            GetBySellerId(sellerId, products).body.products + GetBySellerId(sellerId, later).body.products
    ensures FilterProducts(b, products + later, regexMatch).body.products ==
            FilterProducts(b, products, regexMatch).body.products + FilterProducts(b, later, regexMatch).body.products
  {
    Collections.FilterConcat(products, later, (p: Product) => p.seller == sellerId);
    var q := BuildQuery(b);
    Collections.FilterConcat(products, later, (p: Product) => Matches(q, p, regexMatch));
  }

  /** A product added by a seller is listed last among that seller's
      products. */
  lemma {:induction false} AddedProductListedLast(user: Option<Auth.Claims>, body: Validation.ProductBody, isUri: string -> bool,
                               file: Option<UploadResult>, products: seq<Product>, newId: string)
    requires AddProduct(user, body, isUri, file, products, newId).response.Respond?
    ensures
      var h := AddProduct(user, body, isUri, file, products, newId);
      GetBySellerId(user.value.id.value, h.products).body.products ==
        GetBySellerId(user.value.id.value, products).body.products + [h.response.body.product]
  {
    var h := AddProduct(user, body, isUri, file, products, newId);
    var p := h.response.body.product;
    assert h.products == products + [p] && p.seller == user.value.id.value;
    Collections.FilterAppend(products, p, (x: Product) => x.seller == user.value.id.value);
  }
}

=== FILE: productmodel.dfy ===
/** The product record, with the fields the handlers write. The product
    schema file itself is not part of this model, so no schema validation is
    applied to products. Prices and stock are in hundredths. */
module ProductModel {
  datatype Image = Image(url: string, publicId: string)

  datatype Product = Product(
    id: string,
    name: string,
    description: string,
    price: int,
    category: string,
    stock: int,
    location: string,
    seller: string,
    images: seq<Image>)
}

=== FILE: text.dfy ===
/** The JavaScript string operations the handlers rely on: truthiness, `trim`,
    first-occurrence `replace`, `toUpperCase`/`toLowerCase`, UTF-16 length,
    decimal rendering of `Date.now()`, hex rendering of random bytes and
    `Array.prototype.join`. */
module Text {
  import opened Wrappers

  /** JavaScript truthiness of an optional string: present and non-empty. */
  predicate Truthy(s: Option<string>) {
    s.Some? && s.value != ""
  }

  predicate IsDigit(c: char) {
    '0' <= c <= '9'
  }

  predicate AllDigits(s: string) {
    forall i :: 0 <= i < |s| ==> IsDigit(s[i])
  }

  // ---------------------------------------------------------------------------
  // trim

  /** The characters `String.prototype.trim` removes: ECMAScript's WhiteSpace
      and LineTerminator productions. */
  predicate IsJsWhitespace(c: char) {
    || c == '\t' || c == '\n' || c == '\U{B}' || c == '\U{C}' || c == '\r'
    || c == ' ' || c == '\U{A0}' || c == '\U{1680}'
    || ('\U{2000}' <= c <= '\U{200A}')
    || c == '\U{2028}' || c == '\U{2029}' || c == '\U{202F}' || c == '\U{205F}'
    || c == '\U{3000}' || c == '\U{FEFF}'
  }

  predicate AllWhitespace(s: string) {
    forall i :: 0 <= i < |s| ==> IsJsWhitespace(s[i])
  }

  /** Neither end of `s` is whitespace. */
  predicate Trimmed(s: string) {
    s == [] || (!IsJsWhitespace(s[0]) && !IsJsWhitespace(s[|s| - 1]))
  }

  function TrimStart(s: string): (r: string)
    ensures |r| <= |s| && r == s[|s| - |r|..]
    ensures forall i :: 0 <= i < |s| - |r| ==> IsJsWhitespace(s[i])
    ensures r == [] || !IsJsWhitespace(r[0])
  {
    if |s| > 0 && IsJsWhitespace(s[0]) then TrimStart(s[1..]) else s
  }

  function TrimEnd(s: string): (r: string)
    ensures |r| <= |s| && r == s[..|r|]
    ensures forall i :: |r| <= i < |s| ==> IsJsWhitespace(s[i])
    ensures r == [] || !IsJsWhitespace(r[|r| - 1])
  {
    if |s| > 0 && IsJsWhitespace(s[|s| - 1]) then TrimEnd(s[..|s| - 1]) else s
  }

  /** `s.trim()`: the longest infix of `s` with no whitespace at either end,
      obtained by dropping only whitespace. */
  function Trim(s: string): (r: string)
    ensures Trimmed(r)
    ensures |r| <= |s|
  {
    var t := TrimStart(s);
    var r := TrimEnd(t);
    assert r == [] || r[0] == t[0];
    r
  }

  lemma {:induction false} TrimStartPadded(u: string, t: string)
    requires AllWhitespace(u)
    requires t == [] || !IsJsWhitespace(t[0])
    ensures TrimStart(u + t) == t
    decreases |u|
  {
    if u == [] {
      assert u + t == t;
    } else {
      assert (u + t)[1..] == u[1..] + t;
      TrimStartPadded(u[1..], t);
    }
  }

  lemma {:induction false} TrimEndPadded(t: string, v: string)
    requires AllWhitespace(v)
    requires t == [] || !IsJsWhitespace(t[|t| - 1])
    ensures TrimEnd(t + v) == t
    decreases |v|
  {
    if v == [] {
      assert t + v == t;
    } else {
      var w := t + v;
      assert w[..|w| - 1] == t + v[..|v| - 1];
      TrimEndPadded(t, v[..|v| - 1]);
    }
  }

  /** Reference characterisation of `trim`: surrounding a trimmed string with
      whitespace on both sides and trimming gives the string back. */
  lemma TrimPadded(u: string, t: string, v: string)
    requires AllWhitespace(u) && AllWhitespace(v) && Trimmed(t)
    ensures Trim(u + t + v) == t
  {
    if t == [] {
      assert u + t + v == u + v;
      TrimStartPadded(u + v, []);
      assert u + v + [] == u + v;
      assert TrimStart(u + v) == [];
    } else {
      assert u + t + v == u + (t + v);
      TrimStartPadded(u, t + v);
      TrimEndPadded(t, v);
    }
  }

  /** `trim` empties exactly the strings made only of whitespace. */
  lemma TrimEmptyIffBlank(s: string)
    ensures Trim(s) == [] <==> AllWhitespace(s)
  {
    var t := TrimStart(s);
    if t != [] {
      assert t[0] == s[|s| - |t|];
    }
  }

  /** Trimming is idempotent. */
  lemma TrimIdempotent(s: string)
    ensures Trim(Trim(s)) == Trim(s)
  {
    var t := Trim(s);
    assert [] + t + [] == t;
    TrimPadded([], t, []);
  }

  // ---------------------------------------------------------------------------
  // replace (first occurrence)

  predicate OccursAt(s: string, pat: string, i: nat) {
    i + |pat| <= |s| && s[i..i + |pat|] == pat
  }

  /** The first position at or after `from` where `pat` occurs in `s`. */
  function IndexFrom(s: string, pat: string, from: nat): (r: Option<nat>)
    requires from <= |s|
    ensures r.Some? ==> from <= r.value && OccursAt(s, pat, r.value)
    ensures r.Some? ==> forall j :: from <= j < r.value ==> !OccursAt(s, pat, j)
    ensures r.None? ==> forall j :: from <= j <= |s| ==> !OccursAt(s, pat, j)
    decreases |s| - from
  {
    if OccursAt(s, pat, from) then Some(from)
    else if from == |s| then None
    else IndexFrom(s, pat, from + 1)
  }

  /** `s.indexOf(pat)`. */
  function IndexOf(s: string, pat: string): Option<nat> {
    IndexFrom(s, pat, 0)
  }

  /** `s.replace(pat, rep)` with a string pattern: only the first occurrence
      is replaced. */
  function ReplaceFirst(s: string, pat: string, rep: string): (r: string)
    ensures IndexOf(s, pat).None? ==> r == s
    ensures IndexOf(s, pat).Some? ==>
      var i := IndexOf(s, pat).value;
      i + |pat| <= |s| && r == s[..i] + rep + s[i + |pat|..] && |r| == |s| - |pat| + |rep|
  {
    match IndexOf(s, pat)
    case None => s
    case Some(i) => s[..i] + rep + s[i + |pat|..]
  }

  // ---------------------------------------------------------------------------
  // Case mapping

  /** `toUpperCase` of one character. Covers ASCII, Latin-1 (including the
      two Latin-1 letters whose upper case lies outside it, y with diaeresis
      and micro sign) and the characters outside Latin-1 whose upper case lies
      in ASCII (dotless i, long s, the Latin ligatures); every other character
      maps to itself. */
  function UpperChar(c: char): string {
    if 'a' <= c <= 'z' then [(c as int - 32) as char]
    else if '\U{E0}' <= c <= '\U{FE}' && c != '\U{F7}' then [(c as int - 32) as char]
    else if c == '\U{FF}' then ['\U{178}']
    else if c == '\U{B5}' then ['\U{39C}']
    else if c == '\U{DF}' then "SS"
    else if c == '\U{131}' then "I"
    else if c == '\U{17F}' then "S"
    else if c == '\U{FB00}' then "FF"
    else if c == '\U{FB01}' then "FI"
    else if c == '\U{FB02}' then "FL"
    else if c == '\U{FB03}' then "FFI"
    else if c == '\U{FB04}' then "FFL"
    else if c == '\U{FB05}' || c == '\U{FB06}' then "ST"
    else [c]
  }

  function ToUpper(s: string): string {
    if s == [] then [] else UpperChar(s[0]) + ToUpper(s[1..])
  }

  lemma {:induction false} ToUpperAppend(a: string, b: string)
    ensures ToUpper(a + b) == ToUpper(a) + ToUpper(b)
    decreases |a|
  {
    if a == [] {
      assert a + b == b;
    } else {
      assert (a + b)[1..] == a[1..] + b;
      ToUpperAppend(a[1..], b);
    }
  }

  lemma UpperCharStable(c: char)
    ensures ToUpper(UpperChar(c)) == UpperChar(c)
  {
    var u := UpperChar(c);
    if |u| == 1 {
      assert UpperChar(u[0]) == [u[0]];
      assert ToUpper(u) == UpperChar(u[0]) + ToUpper(u[1..]);
    } else {
      assert forall i :: 0 <= i < |u| ==> 'A' <= u[i] <= 'Z';
      assert ToUpper(u) == UpperChar(u[0]) + ToUpper(u[1..]);
      assert ToUpper(u[1..]) == UpperChar(u[1]) + ToUpper(u[2..]);
      if |u| == 3 {
        assert ToUpper(u[2..]) == UpperChar(u[2]) + ToUpper(u[3..]);
      }
    }
  }

  /** Upper-casing twice is upper-casing once: classifying an already
      upper-cased status gives the same answer. */
  lemma {:induction false} ToUpperIdempotent(s: string)
    ensures ToUpper(ToUpper(s)) == ToUpper(s)
    decreases |s|
  {
    if s != [] {
      ToUpperAppend(UpperChar(s[0]), ToUpper(s[1..]));
      UpperCharStable(s[0]);
      ToUpperIdempotent(s[1..]);
    }
  }

  /** `toLowerCase` of one character, covering ASCII, Latin-1, the
      characters outside them that lower-case into ASCII or Latin-1 (capital
      Y with diaeresis, Kelvin sign, Angstrom sign), and dotted capital I,
      which lower-cases to i followed by a combining dot. Every other character
      maps to itself. */
  function LowerChar(c: char): string {
    if 'A' <= c <= 'Z' then [(c as int + 32) as char]
    else if '\U{C0}' <= c <= '\U{DE}' && c != '\U{D7}' then [(c as int + 32) as char]
    else if c == '\U{178}' then ['\U{FF}']
    else if c == '\U{130}' then ['i', '\U{307}']
    else if c == '\U{212A}' then "k"
    else if c == '\U{212B}' then ['\U{E5}']
    else [c]
  }

  function ToLower(s: string): string {
    if s == [] then [] else LowerChar(s[0]) + ToLower(s[1..])
  }

  // ---------------------------------------------------------------------------
  // Lengths, numbers, hex

  /** JavaScript's `length`: characters outside the Basic Multilingual Plane
      count as two UTF-16 code units. */
  function Utf16Length(s: string): (n: nat)
    ensures |s| <= n <= 2 * |s|
  {
    if s == [] then 0 else (if s[0] as int > 0xFFFF then 2 else 1) + Utf16Length(s[1..])
  }

  function DigitChar(d: nat): (c: char)
    requires d < 10
    ensures IsDigit(c)
  {
    ('0' as int + d) as char
  }

  /** `String(n)` for a non-negative integer below 10^21: its decimal digits,
      with no leading zero. */
  function NatToDecimal(n: nat): (r: string)
    ensures |r| > 0 && AllDigits(r)
    ensures |r| > 1 ==> r[0] != '0'
  {
    if n < 10 then [DigitChar(n)] else NatToDecimal(n / 10) + [DigitChar(n % 10)]
  }

  /** The number a string of decimal digits denotes. */
  function DecimalValue(s: string): nat
    requires AllDigits(s)
  {
    if s == [] then 0 else DecimalValue(s[..|s| - 1]) * 10 + (s[|s| - 1] as int - '0' as int)
  }

  lemma {:induction false} DecimalRoundTrip(n: nat)
    ensures DecimalValue(NatToDecimal(n)) == n
  {
    if n >= 10 {
      var r := NatToDecimal(n);
      assert r[..|r| - 1] == NatToDecimal(n / 10);
      DecimalRoundTrip(n / 10);
    }
  }

  /** Distinct timestamps render to distinct strings. */
  lemma NatToDecimalInjective(a: nat, b: nat)
    requires NatToDecimal(a) == NatToDecimal(b)
    ensures a == b
  {
    DecimalRoundTrip(a);
    DecimalRoundTrip(b);
  }

  newtype byte = x: int | 0 <= x < 256

  predicate IsLowerHex(c: char) {
    '0' <= c <= '9' || 'a' <= c <= 'f'
  }

  function HexDigit(d: int): (c: char)
    requires 0 <= d < 16
    ensures IsLowerHex(c)
  {
    if d < 10 then ('0' as int + d) as char else ('a' as int + d - 10) as char
  }

  function HexValue(c: char): (d: int)
    requires IsLowerHex(c)
    ensures 0 <= d < 16
  {
    if c <= '9' then c as int - '0' as int else c as int - 'a' as int + 10
  }

  /** `buffer.toString("hex")`: two lower-case hex digits per byte, high nibble first. */
  function HexEncode(bytes: seq<byte>): (r: string)
    ensures |r| == 2 * |bytes|
    ensures forall i :: 0 <= i < |r| ==> IsLowerHex(r[i])
  {
    if bytes == [] then []
    else [HexDigit(bytes[0] as int / 16), HexDigit(bytes[0] as int % 16)] + HexEncode(bytes[1..])
  }

  function HexDecode(s: string): seq<byte>
    requires |s| % 2 == 0
    requires forall i :: 0 <= i < |s| ==> IsLowerHex(s[i])
  {
    if s == [] then []
    else [(HexValue(s[0]) * 16 + HexValue(s[1])) as byte] + HexDecode(s[2..])
  }

  lemma {:induction false} HexRoundTrip(bytes: seq<byte>)
    ensures HexDecode(HexEncode(bytes)) == bytes
  {
    if bytes != [] {
      var r := HexEncode(bytes);
      assert r[2..] == HexEncode(bytes[1..]);
      HexRoundTrip(bytes[1..]);
      var b := bytes[0] as int;
      assert HexValue(HexDigit(b / 16)) == b / 16;
      assert HexValue(HexDigit(b % 16)) == b % 16;
    }
  }

  /** `parts.join(sep)`. */
  function Join(parts: seq<string>, sep: string): string {
    if parts == [] then ""
    else if |parts| == 1 then parts[0]
    else parts[0] + sep + Join(parts[1..], sep)
  }
}

=== FILE: upload.dfy ===
/** The image-upload middleware: the MIME-type filter, the storage
    parameters handed to the image host, and the size limit. */
module Upload {
  import opened Wrappers
  import opened Errors
  import Text

  const AllowedTypes: seq<string> := ["image/jpeg", "image/jpg", "image/png"]
  const MaxFileSize: nat := 5 * 1024 * 1024
  const Folder: string := "agrli-app"
  const ResourceType: string := "image"
  const RejectionMessage: string := "Only jpeg, jpg, and png images are allowed!"

  /** What `fileFilter` does: the error passed to the callback, whether the
      file is accepted, and what it records in `req.fileValidationError`. */
  datatype FilterVerdict = FilterVerdict(
    callbackError: Option<AppError>,
    accept: bool,
    fileValidationError: Option<string>)

  function FileFilter(mimetype: string): (v: FilterVerdict)
    ensures v.callbackError == None
    ensures v.accept <==> mimetype == "image/jpeg" || mimetype == "image/jpg" || mimetype == "image/png"
    ensures v.accept ==> v.fileValidationError == None
    ensures !v.accept ==> v.fileValidationError == Some(RejectionMessage)
  {
    if mimetype in AllowedTypes then FilterVerdict(None, true, None)
    else FilterVerdict(None, false, Some(RejectionMessage))
  }

  /** The image format requested from the host for a MIME type. */
  function Format(mimetype: string): (f: string)
    ensures f == "jpg" <==> mimetype == "image/jpeg" || mimetype == "image/jpg"
    ensures f == "png" <==> mimetype == "image/png"
    ensures f == "" || f == "jpg" || f == "png"
  {
    if mimetype == "image/jpeg" || mimetype == "image/jpg" then "jpg"
    else if mimetype == "image/png" then "png"
    else ""
  }

  datatype StorageParams = StorageParams(folder: string, format: string, publicId: string, resourceType: string)

  /** The `params` callback of the storage engine, with `Date.now()` as input. */
  function Params(mimetype: string, now: nat): (p: StorageParams)
    ensures p.folder == "agrli-app" && p.resourceType == "image"
    ensures p.format == Format(mimetype)
    ensures p.publicId == "sample-" + Text.NatToDecimal(now)
  {
    StorageParams(Folder, Format(mimetype), "sample-" + Text.NatToDecimal(now), ResourceType)
  }

  /** The filter and the format table agree: a file is accepted exactly when
      a non-empty format is requested for it. */
  lemma FilterAgreesWithFormat(mimetype: string)
    ensures FileFilter(mimetype).accept <==> Format(mimetype) != ""
  {
  }

  /** What reaches the handler for one uploaded part. */
  datatype Reception =
    | Skipped(validationError: string)   // filtered out: no req.file, no error
    | TooLarge(err: AppError)            // the size limit aborted the upload
    | Stored(params: StorageParams)      // req.file is present

  /** Multer's treatment of one file: the filter runs first, then the size
      limit is enforced while the file is stored. */
  function Receive(mimetype: string, size: nat, now: nat): (r: Reception)
    ensures r.Stored? <==> FileFilter(mimetype).accept && size <= 5 * 1024 * 1024
    ensures r.Skipped? <==> !FileFilter(mimetype).accept
    ensures r.TooLarge? ==> r.err.statusCode.None?
    ensures r.Stored? ==> r.params == Params(mimetype, now) && r.params.format != ""
    ensures r.Skipped? ==> r.validationError == RejectionMessage
    ensures r.TooLarge? ==> r.err == PlainError("MulterError", "File too large")
  {
    var verdict := FileFilter(mimetype);
    if !verdict.accept then Skipped(verdict.fileValidationError.value)
    else if size > MaxFileSize then TooLarge(PlainError("MulterError", "File too large"))
    else Stored(Params(mimetype, now))
  }
}

=== FILE: usercontroller.dfy ===
/** The account handlers: sign-up, sign-in, lookup and deletion over the user
    collection. Password hashing, hash comparison and token signing are
    inputs: `hashed` is the digest the hashing library returned for the
    submitted password, `compare` and `sign` stand for the libraries'
    functions. */
module UserController {
  import opened Wrappers
  import opened Errors
  import opened Http
  import opened UserModel
  import opened Validation
  import Auth
  import Collections
  import Text

  /** The user as echoed after sign-up: every field except the password. */
  datatype UserView = UserView(
    id: string,
    username: string,
    email: string,
    role: string,
    phoneNumber: string,
    address: Option<string>)

  /** The payload signed into a session token. */
  datatype SessionClaims = SessionClaims(id: string, email: string, role: string)

  datatype UserBody =
    | Created(user: UserView)       // 201 "User created successfully"
    | LoggedIn(token: string)       // 200 "User logged in successfully"
    | Found(found: User)            // 200 "user Found successfully"
    | Deleted                       // 200 "Successfully deleted user"

  datatype Handled = Handled(response: Response<UserBody>, users: seq<User>)

  function View(u: User): (v: UserView)
    ensures v.id == u.id && v.username == u.username && v.email == u.email
    ensures v.role == u.role && v.phoneNumber == u.phoneNumber && v.address == u.address
  {
    UserView(u.id, u.username, u.email, u.role, u.phoneNumber, u.address)
  }

  /** Some stored user has exactly this e-mail (the lookup is case-sensitive). */
  predicate EmailTaken(users: seq<User>, email: string) {
    Collections.FirstIndex(users, (u: User) => u.email == email).Some?
  }

  /** `signUp`, with `newId` the key the database assigns. */
  function SignUp(body: SignUpBody, users: seq<User>, isEmail: string -> bool, hashed: string, newId: string): (h: Handled)
    ensures !SignUpValid(body, isEmail) ==>
      h == Handled(Next(BadRequestError(Message(SignUpViolations(body, isEmail)))), users)
    ensures SignUpValid(body, isEmail) && EmailTaken(users, Text.ToLower(body.email.value)) ==>
      h == Handled(Next(BadRequestError("Email already exists.")), users)
    ensures h.response.Next? ==> h.users == users
    ensures h.response.Respond? ==>
      && SignUpValid(body, isEmail)
      && !EmailTaken(users, Text.ToLower(body.email.value))
      && h.users == users + [User(newId, body.username.value, Text.ToLower(body.email.value), hashed,
                                  body.address, body.phoneNumber.value, body.role.value)]
      && h.response == Respond(201, Created(View(h.users[|users|])))
      && !(exists k :: 0 <= k < |users| && users[k].id == newId)
    ensures (&& SignUpValid(body, isEmail) && !EmailTaken(users, Text.ToLower(body.email.value))
             && hashed != "" && !(exists k :: 0 <= k < |users| && users[k].id == newId)) ==>
      h.response.Respond?
    ensures StoreInvariant(users) ==> StoreInvariant(h.users)
  {
    var violations := SignUpViolations(body, isEmail);
    if violations != [] then
      Handled(Next(BadRequestError(Message(violations))), users)
    else if body.password != body.confirmPassword then
      Handled(Next(BadRequestError("Password and Confirm Password do not match.")), users)
    else
      var email := Text.ToLower(body.email.value);
      if EmailTaken(users, email) then
        Handled(Next(BadRequestError("Email already exists.")), users)
      else
        var role := if Text.Truthy(body.role) then body.role.value else "user";
        var fields := UserFields(body.username, Some(email), Some(hashed), body.address, body.phoneNumber, Some(role));
        match Save(users, newId, fields)
        case Failure(e) => Handled(Next(e), users)
        case Success(users') => Handled(Respond(201, Created(View(users'[|users|]))), users')
  }

  /** The password-mismatch check after validation never fires: the schema
      already demands `confirmPassword == password`; likewise the fallback role
      `'user'` (itself outside the enum) is never used. */
  lemma MismatchCheckUnreachable(body: SignUpBody, isEmail: string -> bool)
    requires SignUpValid(body, isEmail)
    ensures body.password == body.confirmPassword
    ensures Text.Truthy(body.role)
    ensures "user" !in Roles
  {
  }

  /** `signin` as written: the e-mail is looked up exactly as submitted. */
  function SignIn(body: SignInBody, users: seq<User>, isEmail: string -> bool,
                  compare: (string, string) -> bool, secret: Option<string>,
                  sign: (SessionClaims, string) -> string): (r: Response<UserBody>)
    ensures !SignInValid(body, isEmail) ==> r == Next(BadRequestError(Message(SignInViolations(body, isEmail))))
    ensures SignInValid(body, isEmail) ==>
      r == Authenticate(body.email.value, body.password.value, users, compare, secret, sign)
  {
    var violations := SignInViolations(body, isEmail);
    if violations != [] then Next(BadRequestError(Message(violations)))
    else Authenticate(body.email.value, body.password.value, users, compare, secret, sign)
  }

  /** The part of sign-in after validation: look up `email` verbatim, compare
      the password, then sign a token. Both ways of failing give the same
      error. */
  function Authenticate(email: string, password: string, users: seq<User>,
                        compare: (string, string) -> bool, secret: Option<string>,
                        sign: (SessionClaims, string) -> string): (r: Response<UserBody>)
    ensures r.Respond? <==>
      var k := Collections.FirstIndex(users, (u: User) => u.email == email);
      k.Some? && compare(password, users[k.value].password) && Text.Truthy(secret)
    ensures r.Respond? ==>
      var u := users[Collections.FirstIndex(users, (u: User) => u.email == email).value];
      u.email == email && r == Respond(200, LoggedIn(sign(SessionClaims(u.id, u.email, u.role), secret.value)))
    ensures
      var k := Collections.FirstIndex(users, (u: User) => u.email == email);
      k.Some? && compare(password, users[k.value].password) && !Text.Truthy(secret) ==>
        r == Next(PlainError("Error", "JWT_SECRET_KEY environment variable is not set."))
    ensures !EmailTaken(users, email) ==> r == Next(UnauthorizedError("Invalid email or password"))
    ensures r.Next? && r.err.statusCode == Some(401) ==> r == Next(UnauthorizedError("Invalid email or password"))
  {
    match Collections.FirstIndex(users, (u: User) => u.email == email)
    case None => Next(UnauthorizedError("Invalid email or password"))
    case Some(k) =>
      var u := users[k];
      if !compare(password, u.password) then Next(UnauthorizedError("Invalid email or password"))
      else if !Text.Truthy(secret) then Next(PlainError("Error", "JWT_SECRET_KEY environment variable is not set."))
      else Respond(200, LoggedIn(sign(SessionClaims(u.id, u.email, u.role), secret.value)))
  }

  /** An unknown e-mail and a wrong password are indistinguishable to the caller. */
  lemma SignInFailuresIndistinguishable(
    users1: seq<User>, email1: string, users2: seq<User>, email2: string, password: string,
    compare: (string, string) -> bool, secret: Option<string>, sign: (SessionClaims, string) -> string)
    requires !EmailTaken(users1, email1)
    requires EmailTaken(users2, email2)
    requires !compare(password, users2[Collections.FirstIndex(users2, (u: User) => u.email == email2).value].password)
    ensures Authenticate(email1, password, users1, compare, secret, sign)
         == Authenticate(email2, password, users2, compare, secret, sign)
  {
  }

  /** Sign-in with the e-mail lower-cased, as sign-up stores it. */
  function SignInCaseInsensitive(body: SignInBody, users: seq<User>, isEmail: string -> bool,
                                 compare: (string, string) -> bool, secret: Option<string>,
                                 sign: (SessionClaims, string) -> string): (r: Response<UserBody>)
    ensures !SignInValid(body, isEmail) ==> r == Next(BadRequestError(Message(SignInViolations(body, isEmail))))
    ensures SignInValid(body, isEmail) ==>
      r == Authenticate(Text.ToLower(body.email.value), body.password.value, users, compare, secret, sign)
  {
    var violations := SignInViolations(body, isEmail);
    if violations != [] then Next(BadRequestError(Message(violations)))
    else Authenticate(Text.ToLower(body.email.value), body.password.value, users, compare, secret, sign)
  }

  /** With the lookup lower-cased, whoever signs up can sign in with the very
      e-mail and password they signed up with. */
  lemma SignUpThenSignIn(body: SignUpBody, users: seq<User>, isEmail: string -> bool, hashed: string, newId: string,
                         compare: (string, string) -> bool, secret: Option<string>,
                         sign: (SessionClaims, string) -> string)
    requires SignUp(body, users, isEmail, hashed, newId).response.Respond?
    requires compare(body.password.value, hashed)
    requires Text.Truthy(secret)
    ensures
      var users' := SignUp(body, users, isEmail, hashed, newId).users;
      SignInCaseInsensitive(SignInBody(body.email, body.password, []), users', isEmail, compare, secret, sign).Respond?
  {
    var users' := SignUp(body, users, isEmail, hashed, newId).users;
    var email := Text.ToLower(body.email.value);
    var p := (u: User) => u.email == email;
    assert Collections.FirstIndex(users, p).None?;
    assert users'[|users|].email == email;
    var k := Collections.FirstIndex(users', p);
    assert k.Some?;
    assert k.value == |users|;
  }

  /** As written, sign-in does not find a user who signed up with an e-mail
      that lower-casing changes, even with the same e-mail and password,
      unless some earlier user happens to hold that exact spelling. */
  lemma MixedCaseSignUpCannotSignIn(body: SignUpBody, users: seq<User>, isEmail: string -> bool, hashed: string,
                                    newId: string, compare: (string, string) -> bool, secret: Option<string>,
                                    sign: (SessionClaims, string) -> string)
    requires SignUp(body, users, isEmail, hashed, newId).response.Respond?
    requires Text.ToLower(body.email.value) != body.email.value
    requires !EmailTaken(users, body.email.value)
    ensures
      var users' := SignUp(body, users, isEmail, hashed, newId).users;
      SignIn(SignInBody(body.email, body.password, []), users', isEmail, compare, secret, sign)
        == Next(UnauthorizedError("Invalid email or password"))
  {
    var users' := SignUp(body, users, isEmail, hashed, newId).users;
    var email := body.email.value;
    assert SignInValid(SignInBody(body.email, body.password, []), isEmail);
    forall j | 0 <= j < |users'|
      ensures users'[j].email != email
    {
      if j < |users| {
        assert users'[j] == users[j];
      }
    }
    assert !EmailTaken(users', email);
  }

  /** An instance: "Ann@x.io" signs up and then cannot sign in. */
  lemma AnnCannotSignIn(compare: (string, string) -> bool, secret: Option<string>,
                                    sign: (SessionClaims, string) -> string)
    ensures
      var body := SignUpBody(Some("Ann@x.io"), Some("Ann@x.io"), Some("Kigali"), Some("secret1"),
                             Some("Buyer"), Some("secret1"), Some("0781234567"), []);
      var isEmail := (s: string) => true;
      var h := SignUp(body, [], isEmail, "$2b$10$digest", "u1");
      && h.response.Respond?
      && SignIn(SignInBody(Some("Ann@x.io"), Some("secret1"), []), h.users, isEmail, compare, secret, sign)
         == Next(UnauthorizedError("Invalid email or password"))
  {
    var body := SignUpBody(Some("Ann@x.io"), Some("Ann@x.io"), Some("Kigali"), Some("secret1"),
                           Some("Buyer"), Some("secret1"), Some("0781234567"), []);
    var isEmail := (s: string) => true;
    SampleBodyValid(body, isEmail);
    SampleEmailLowered();
    var h := SignUp(body, [], isEmail, "$2b$10$digest", "u1");
    var u := User("u1", "Ann@x.io", "ann@x.io", "$2b$10$digest", Some("Kigali"), "0781234567", "Buyer");
    assert h.users == [] + [u];
    assert !EmailTaken(h.users, "Ann@x.io") by {
      assert h.users[0].email != "Ann@x.io";
    }
  }

  lemma SampleEmailLowered()
    ensures Text.ToLower("Ann@x.io") == "ann@x.io"
  {
    SampleDomainLowered();
    assert Text.ToLower("n@x.io") == "n@x.io";
    assert Text.ToLower("nn@x.io") == "nn@x.io";
    assert Text.ToLower("Ann@x.io") == "ann@x.io";
  }

  lemma SampleDomainLowered()
    ensures Text.ToLower("@x.io") == "@x.io"
  {
    assert Text.ToLower("o") == "o";
    assert Text.ToLower("io") == "io";
    assert Text.ToLower(".io") == ".io";
    assert Text.ToLower("x.io") == "x.io";
  }

  lemma SampleBodyValid(body: SignUpBody, isEmail: string -> bool)
    requires body == SignUpBody(Some("Ann@x.io"), Some("Ann@x.io"), Some("Kigali"), Some("secret1"),
                                Some("Buyer"), Some("secret1"), Some("0781234567"), [])
    requires forall s :: isEmail(s)
    ensures SignUpValid(body, isEmail)
  {
    var phone := "0781234567";
    assert |phone| == 10;
    assert forall i :: 0 <= i < |phone| ==> '0' <= phone[i] <= '9';
  }

  /** `getUserById`. */
  function GetUserById(id: string, users: seq<User>): (r: Response<UserBody>)
    ensures r.Respond? <==> exists i :: 0 <= i < |users| && users[i].id == id
    ensures r.Respond? ==> r.status == 200 && r.body.Found? && r.body.found in users && r.body.found.id == id
    ensures r.Next? ==> r == Next(NotFoundError("user not found"))
  {
    match Collections.FirstIndex(users, (u: User) => u.id == id)
    case None => Next(NotFoundError("user not found"))
    case Some(k) => Respond(200, Found(users[k]))
  }

  /** `getUserProfile`: the caller's own record, found through the token's id. */
  function GetUserProfile(user: Option<Auth.Claims>, users: seq<User>): (r: Response<UserBody>)
    ensures !(user.Some? && Text.Truthy(user.value.id)) ==> r == Next(BadRequestError("User not authenticated"))
    ensures user.Some? && Text.Truthy(user.value.id) ==>
      (r.Respond? <==> exists i :: 0 <= i < |users| && users[i].id == user.value.id.value)
    ensures r.Next? && user.Some? && Text.Truthy(user.value.id) ==> r == Next(NotFoundError("user not found"))
    ensures r.Respond? ==> r.status == 200 && r.body.Found? && r.body.found in users && Some(r.body.found.id) == user.value.id
  {
    if user.None? || !Text.Truthy(user.value.id) then Next(BadRequestError("User not authenticated"))
    else
      match GetUserById(user.value.id.value, users)
      case Next(_) => Next(NotFoundError("user not found"))
      case Respond(s, b) => Respond(s, b)
  }

  /** A user who has just signed up finds their own record through a token
      carrying the new id. */
  lemma SignedUpUserHasProfile(body: SignUpBody, users: seq<User>, isEmail: string -> bool, hashed: string, newId: string)
    requires SignUp(body, users, isEmail, hashed, newId).response.Respond? && newId != ""
    ensures
      var h := SignUp(body, users, isEmail, hashed, newId);
      GetUserProfile(Some(Auth.Claims(Some(newId), None, None, None)), h.users) == Respond(200, Found(h.users[|users|]))
  {
    var h := SignUp(body, users, isEmail, hashed, newId);
    var k := Collections.FirstIndex(h.users, (u: User) => u.id == newId);
    assert h.users[|users|].id == newId;
    assert k == Some(|users|) by {
      assert forall j :: 0 <= j < |users| ==> h.users[j] == users[j];
    }
  }

  /** The collection after `findByIdAndDelete(id)`: every other record. */
  function Remaining(users: seq<User>, id: string): seq<User> {
    Collections.Filter(users, (u: User) => u.id != id)
  }

  /** Removing the one record with a given id from a collection with unique
      ids shortens it by one and keeps the store invariant. */
  lemma RemovalKeepsInvariant(users: seq<User>, id: string, k: nat)
    requires UniqueIds(users) && k < |users| && users[k].id == id
    ensures Remaining(users, id) == users[..k] + users[k + 1..]
    ensures |Remaining(users, id)| == |users| - 1
    ensures StoreInvariant(users) ==> StoreInvariant(Remaining(users, id))
  {
    Collections.FilterRemovesOne(users, (u: User) => u.id != id, k);
    if StoreInvariant(users) {
      DropKeepsInvariant(users, k);
    }
  }

  /** Dropping one record from a consistent store leaves it consistent. */
  lemma DropKeepsInvariant(users: seq<User>, k: nat)
    requires StoreInvariant(users) && k < |users|
    ensures StoreInvariant(users[..k] + users[k + 1..])
  {
    var users' := users[..k] + users[k + 1..];
    forall i | 0 <= i < |users'| ensures users'[i] == users[if i < k then i else i + 1] {
    }
    forall i, j | 0 <= i < j < |users'| ensures users'[i].id != users'[j].id {
      assert users'[i] == users[if i < k then i else i + 1];
      assert users'[j] == users[if j < k then j else j + 1];
    }
  }

  /** `deleteUser`: an unknown id leaves the collection alone; a known one
      removes exactly that record. */
  function DeleteUser(id: string, users: seq<User>): (h: Handled)
    ensures (forall i :: 0 <= i < |users| ==> users[i].id != id) <==> h.response.Next?
    ensures h.response.Next? ==> h == Handled(Next(NotFoundError("User not found!")), users)
    ensures h.response.Respond? ==> h.response == Respond(200, Deleted)
    ensures forall u :: u in h.users <==> u in users && u.id != id
    ensures h.response.Respond? && UniqueIds(users) ==> |h.users| == |users| - 1
    ensures StoreInvariant(users) ==> StoreInvariant(h.users)
  {
    match Collections.FirstIndex(users, (u: User) => u.id == id)
    case None => Handled(Next(NotFoundError("User not found!")), users)
    case Some(k) =>
      assert UniqueIds(users) ==>
        (|Remaining(users, id)| == |users| - 1 && (StoreInvariant(users) ==> StoreInvariant(Remaining(users, id)))) by {
        if UniqueIds(users) {
          RemovalKeepsInvariant(users, id, k);
        }
      }
      Handled(Respond(200, Deleted), Remaining(users, id))
  }
}

=== FILE: usermodel.dfy ===
/** The user record and its schema: required fields, the role enum, and the
    role default that lies outside that enum. */
module UserModel {
  import opened Wrappers
  import opened Errors
  import Collections

  const Roles: seq<string> := ["Buyer", "Seller", "Admin"]

  /** The schema's default role. It is not one of `Roles`. */
  const DefaultRole: string := "Customer"

  /** A stored user. `id` is the document key. */
  datatype User = User(
    id: string,
    username: string,
    email: string,
    password: string,
    address: Option<string>,
    phoneNumber: string,
    role: string)

  /** The fields handed to the model constructor; `None` is an absent field. */
  datatype UserFields = UserFields(
    username: Option<string>,
    email: Option<string>,
    password: Option<string>,
    address: Option<string>,
    phoneNumber: Option<string>,
    role: Option<string>)

  /** A required string path: present and non-empty. */
  predicate Required(v: Option<string>) {
    v.Some? && v.value != ""
  }

  /** Defaults are applied before validation: an absent role becomes the default. */
  function WithDefaults(f: UserFields): (g: UserFields)
    ensures g.role.Some?
    ensures f.role.Some? ==> g == f
    ensures f.role.None? ==> g.role == Some(DefaultRole)
  {
    f.(role := Some(f.role.GetOr(DefaultRole)))
  }

  /** The schema's validators on a document with defaults applied: five
      required paths (address is optional) and the role enum. */
  predicate FieldsValid(f: UserFields) {
    && Required(f.username)
    && Required(f.email)
    && Required(f.password)
    && Required(f.phoneNumber)
    && Required(f.role) && f.role.value in Roles
  }

  /** A stored record satisfying the schema. */
  predicate ValidUser(u: User) {
    u.username != "" && u.email != "" && u.password != "" && u.phoneNumber != "" && u.role in Roles
  }

  predicate UniqueIds(users: seq<User>) {
    forall i, j :: 0 <= i < j < |users| ==> users[i].id != users[j].id
  }

  /** The collection invariant: every record valid, ids distinct. */
  predicate StoreInvariant(users: seq<User>) {
    (forall i :: 0 <= i < |users| ==> ValidUser(users[i])) && UniqueIds(users)
  }

  const ValidationFailed: AppError := PlainError("ValidationError", "User validation failed")
  const DuplicateKey: AppError := PlainError("MongoServerError", "E11000 duplicate key error")

  /** `new User(fields).save()` with `id` as the generated key: defaults, then
      validation, then the insert. */
  function Save(users: seq<User>, id: string, f: UserFields): (r: Result<seq<User>, AppError>)
    ensures r.Success? <==> FieldsValid(WithDefaults(f)) && Collections.FirstIndex(users, (u: User) => u.id == id).None?
    ensures r.Success? ==> |r.value| == |users| + 1 && r.value[..|users|] == users
    ensures r.Success? ==> var u := r.value[|users|];
      && u.id == id && Some(u.username) == f.username && Some(u.email) == f.email
      && Some(u.password) == f.password && u.address == f.address
      && Some(u.phoneNumber) == f.phoneNumber && Some(u.role) == f.role
    ensures !FieldsValid(WithDefaults(f)) ==> r == Failure(ValidationFailed)
    ensures r.Failure? ==> r.error.statusCode.None?
    ensures r.Success? && StoreInvariant(users) ==> StoreInvariant(r.value)
  {
    var g := WithDefaults(f);
    if !FieldsValid(g) then Failure(ValidationFailed)
    else if Collections.FirstIndex(users, (u: User) => u.id == id).Some? then Failure(DuplicateKey)
    else
      var u := User(id, g.username.value, g.email.value, g.password.value, g.address, g.phoneNumber.value, g.role.value);
      var users' := users + [u];
      assert users'[..|users|] == users;
      Success(users')
  }

  /** The default role is outside the role enum. */
  lemma DefaultRoleOutsideEnum()
    ensures DefaultRole !in Roles
  {
  }

  /** A user document saved without a role is refused: the default role
      fails the enum check. */
  lemma MissingRoleNeverSaves(users: seq<User>, id: string, f: UserFields)
    requires f.role.None?
    ensures Save(users, id, f).Failure?
  {
    DefaultRoleOutsideEnum();
  }
}

=== FILE: validation.dfy ===
/** The request-body schemas for sign-up, sign-in and products, as
    predicates over the body's fields. Keys the schema does not declare are
    rejected, as the validation library does by default. The e-mail and URI
    format checks are inputs (`isEmail`, `isUri`). Numbers are in hundredths,
    so `price` 12.5 is 1250 and `stock` 3 is 300. */
module Validation {
  import opened Wrappers
  import Text

  // ---------------------------------------------------------------------------
  // Field rules

  /** A required string: present and non-empty (empty strings are refused). */
  predicate RequiredString(v: Option<string>) {
    v.Some? && v.value != ""
  }

  /** `string().min(lo).max(hi).required()`; lengths count UTF-16 code units. */
  predicate StringBetween(v: Option<string>, lo: nat, hi: nat) {
    RequiredString(v) && lo <= Text.Utf16Length(v.value) <= hi
  }

  /** `string().min(lo).required()`. */
  predicate StringAtLeast(v: Option<string>, lo: nat) {
    RequiredString(v) && lo <= Text.Utf16Length(v.value)
  }

  /** `/^[0-9]{10}$/`. */
  predicate TenDigits(s: string) {
    |s| == 10 && Text.AllDigits(s)
  }

  /** The message list of a failed validation becomes one error message. */
  function Message(violations: seq<string>): string {
    Text.Join(violations, ", ")
  }

  // ---------------------------------------------------------------------------
  // Sign-up

  const SignUpRoles: seq<string> := ["Seller", "Buyer", "Admin"]

  datatype SignUpBody = SignUpBody(
    username: Option<string>,
    email: Option<string>,
    address: Option<string>,
    password: Option<string>,
    role: Option<string>,
    confirmPassword: Option<string>,
    phoneNumber: Option<string>,
    extraKeys: seq<string>)

  predicate SignUpValid(b: SignUpBody, isEmail: string -> bool) {
    && StringBetween(b.username, 3, 30)
    && RequiredString(b.email) && isEmail(b.email.value)
    && RequiredString(b.address)
    && StringAtLeast(b.password, 6)
    && b.role.Some? && b.role.value in SignUpRoles
    && b.confirmPassword.Some? && b.password == b.confirmPassword
    && b.phoneNumber.Some? && TenDigits(b.phoneNumber.value)
    && b.extraKeys == []
  }

  /** The failing keys, in the order they are reported when validation does
      not stop at the first error: declared keys first, then unknown ones. */
  function SignUpViolations(b: SignUpBody, isEmail: string -> bool): (r: seq<string>)
    ensures r == [] <==> SignUpValid(b, isEmail)
    ensures !StringAtLeast(b.password, 6) ==> "password" in r
    ensures b.password != b.confirmPassword ==> "confirmPassword" in r
  {
    (if StringBetween(b.username, 3, 30) then [] else ["username"])
    + (if RequiredString(b.email) && isEmail(b.email.value) then [] else ["email"])
    + (if RequiredString(b.address) then [] else ["address"])
    + (if StringAtLeast(b.password, 6) then [] else ["password"])
    + (if b.role.Some? && b.role.value in SignUpRoles then [] else ["role"])
    + (if b.confirmPassword.Some? && b.password == b.confirmPassword then [] else ["confirmPassword"])
    + (if b.phoneNumber.Some? && TenDigits(b.phoneNumber.value) then [] else ["phoneNumber"])
    + b.extraKeys
  }

  /** A body the sign-up schema accepts already has matching passwords, a
      role from the user enum and a ten-digit phone number. */
  lemma SignUpValidConsequences(b: SignUpBody, isEmail: string -> bool)
    requires SignUpValid(b, isEmail)
    ensures b.password == b.confirmPassword
    ensures b.role.value == "Buyer" || b.role.value == "Seller" || b.role.value == "Admin"
    ensures |b.username.value| <= 30
  {
  }

  // ---------------------------------------------------------------------------
  // Sign-in

  datatype SignInBody = SignInBody(email: Option<string>, password: Option<string>, extraKeys: seq<string>)

  predicate SignInValid(b: SignInBody, isEmail: string -> bool) {
    && StringAtLeast(b.password, 6)
    && RequiredString(b.email) && isEmail(b.email.value)
    && b.extraKeys == []
  }

  function SignInViolations(b: SignInBody, isEmail: string -> bool): (r: seq<string>)
    ensures r == [] <==> SignInValid(b, isEmail)
  {
    (if StringAtLeast(b.password, 6) then [] else ["password"])
    + (if RequiredString(b.email) && isEmail(b.email.value) then [] else ["email"])
    + b.extraKeys
  }

  // ---------------------------------------------------------------------------
  // Product

  datatype ProductBody = ProductBody(
    name: Option<string>,
    description: Option<string>,
    price: Option<int>,
    category: Option<string>,
    stock: Option<int>,
    location: Option<string>,
    images: Option<string>,
    extraKeys: seq<string>)

  /** `number().positive().precision(2)`: hundredths already carry at most
      two decimal places. */
  predicate PriceOk(price: Option<int>) {
    price.Some? && price.value > 0
  }

  /** `number().integer().min(0)`. */
  predicate StockOk(stock: Option<int>) {
    stock.Some? && stock.value % 100 == 0 && stock.value >= 0
  }

  /** `string().uri().optional()`. */
  predicate ImagesOk(images: Option<string>, isUri: string -> bool) {
    images.None? || (images.value != "" && isUri(images.value))
  }

  predicate ProductValid(b: ProductBody, isUri: string -> bool) {
    && StringBetween(b.name, 3, 100)
    && StringBetween(b.description, 10, 1000)
    && PriceOk(b.price)
    && StringBetween(b.category, 3, 50)
    && StockOk(b.stock)
    && StringBetween(b.location, 3, 200)
    && ImagesOk(b.images, isUri)
    && b.extraKeys == []
  }

  function ProductViolations(b: ProductBody, isUri: string -> bool): (r: seq<string>)
    ensures r == [] <==> ProductValid(b, isUri)
    ensures !PriceOk(b.price) ==> "price" in r
    ensures !StockOk(b.stock) ==> "stock" in r
  {
    (if StringBetween(b.name, 3, 100) then [] else ["name"])
    + (if StringBetween(b.description, 10, 1000) then [] else ["description"])
    + (if PriceOk(b.price) then [] else ["price"])
    + (if StringBetween(b.category, 3, 50) then [] else ["category"])
    + (if StockOk(b.stock) then [] else ["stock"])
    + (if StringBetween(b.location, 3, 200) then [] else ["location"])
    + (if ImagesOk(b.images, isUri) then [] else ["images"])
    + b.extraKeys
  }

  /** A body that names its seller is refused: `seller` is not a declared key. */
  lemma SellerKeyRefused(b: ProductBody, isUri: string -> bool)
    requires "seller" in b.extraKeys
    ensures !ProductValid(b, isUri)
  {
  }
}

=== FILE: wrappers.dfy ===
/** Optional values and success/failure results, used for JavaScript's
    `undefined`/`null` and for handlers that either produce a value or an error. */
module Wrappers {

  /** An optional value: `None` stands for a missing (`undefined`/`null`) field. */
  datatype Option<+T> = None | Some(value: T) {

    /** The value, or `default` when missing. */
    function GetOr(default: T): T {
      match this
      case Some(v) => v
      case None => default
    }
  }

  /** Either a value or an error. */
  datatype Result<+R, +E> = Success(value: R) | Failure(error: E)
}
